=== FILE: README.md ===
# dictWorker: a verified model of the word-list worker

`dictWorker.js` is a web worker. It holds a prefix tree (trie) of lower-case
words. On a `loadUrl` message it streams a word list into the tree, one word
per line, and posts `progress` messages and then a `loaded` message with the
line count. On a `contains` or `isPrefix` message it normalises the query term
and posts the answer back, tagged with the request's `id`.

This project models that core in Dafny:

- `trie.dfy`, module `Trie`: the tree as an immutable datatype
  `Node(children: map<char, Node>, isWord: bool)`, with `Insert`, `Contains`
  and `IsPrefix`, and the shape `Valid` that every tree the worker builds has.
- `normalize.dfy`, module `Normalize`:
  - `Trim`, which uses the ECMAScript whitespace and line-terminator set;
  - `Lower` (`toLowerCase`);
  - `Strip` (`replace(/[^a-z]/g, '')`);
  - the line path `CleanLine` and the query path `NormalizeQuery`.
- `lines.dfy`, module `Lines`: `split(/\r?\n/)` is modelled as a split on `\n`
  followed by dropping one `\r` from every complete line. The last piece is
  kept back as the carried buffer.
- `loader.dfy`, module `Loader`: the streaming load is a fold over the
  decoded text chunks. It produces the grown tree, the progress messages and
  the final count. The percentage `Math.min(99, Math.round(count / est * 100))`
  is computed on exact rationals.
- `worker.dfy`, module `Worker`: the message listener is modelled as a
  transition from a tree and a request to a new tree and the replies posted.
  The fetch is a parameter that maps a URL to a status and the decoded chunks.
  `Serve` runs a whole sequence of messages.
- `scenario.dfy`, module `Scenario`: a four-line sample word list, worked
  through the model. `sample_tokens.dfy`, module `SampleTokens`, cleans the
  sample's lines one step at a time.
- `alphabet.dfy` and `wrappers.dfy` hold the letter predicate and `Option`.

The count follows the code. A line that is blank after trimming is skipped
before `count++` (dictWorker.js:60), so it is not counted. A line with no
letter is counted but inserts nothing. Reading `count` as "lines processed"
would give 4 for the sample `"Apple\n", "  BANANA!!\n", "\n", "cherry"`. The
code gives 3, and `Scenario.ExampleCount` proves 3.

## Model

| member | source | states |
|---|---|---|
| Trie.Insert | dictWorker.js:9-17 | after inserting `w`, `w` is stored and is a prefix of the tree |
| Trie.WalkCons | dictWorker.js:19-23 | walking a character and then a string from a node is walking the string from that character's child; a missing child ends the walk |
| Trie.Contains | dictWorker.js:18-25 | the recursive lookup answers true exactly when the source's walk loop reaches a node and that node is a word |
| Trie.IsPrefix | dictWorker.js:26-33 | the recursive lookup answers true exactly when the source's walk loop never falls off the tree |
| Trie.InsertContains | dictWorker.js:9-25 | after inserting `w`, a word is stored if and only if it is `w` or was stored before; every other word keeps its answer |
| Trie.InsertIsPrefix | dictWorker.js:9-33 | after inserting `w`, a string is a prefix if and only if it is a prefix of `w` or was a prefix before |
| Trie.InsertIdempotent | dictWorker.js:9-17 | inserting the same word twice gives a tree structurally equal to inserting it once |
| Trie.ContainsIsPrefix | dictWorker.js:18-33 | a stored word is a prefix, and the empty string is a prefix of every tree |
| Trie.PrefixClosed | dictWorker.js:26-33 | every prefix of a prefix of the tree is a prefix of the tree |
| Trie.EmptyHoldsNothing | dictWorker.js:4-8 | a fresh tree stores no word, and its only prefix is the empty string |
| Trie.EmptyValid | dictWorker.js:36 | the worker's initial tree is valid: it does not store the empty word, all edges are `a`-`z`, and there are no dead branches |
| Trie.InsertValid | dictWorker.js:63 | inserting a non-empty word over `a`-`z` keeps a tree valid |
| Normalize.TrimSplits | dictWorker.js:59 | a line is exactly the whitespace trim removes in front, what it keeps, and the whitespace it removes behind |
| Normalize.Trim | dictWorker.js:59 | the trimmed text is no longer than the line, and when it is not empty it neither starts nor ends with whitespace |
| Normalize.TrimSpec | dictWorker.js:59 | the parts trim removes are all whitespace, and what it keeps starts and ends with a non-space |
| Normalize.TrimEmpty | dictWorker.js:76 | trim leaves the empty string exactly when the line is all whitespace |
| Normalize.TrimLetters | dictWorker.js:59 | trim leaves a word over `a`-`z` unchanged |
| Normalize.LowerChar | dictWorker.js:59 | a capital `A`-`Z` lower-cases to the matching `a`-`z`, one character long; a letter `a`-`z` stays as it is |
| Normalize.Lower | dictWorker.js:59 | lower-casing never shortens a string |
| Normalize.LowerAscii | dictWorker.js:59 | on ASCII text, lower-casing keeps the length and turns each `A`-`Z` into the matching `a`-`z` in place, keeping every other character |
| Normalize.LowerAppend | dictWorker.js:59 | lower-casing works character by character, so it distributes over concatenation |
| Normalize.LowerLetters | dictWorker.js:83 | lower-casing leaves a word over `a`-`z` unchanged |
| Normalize.Strip | dictWorker.js:62 | the filter outputs only `a`-`z`, never lengthens its input, and keeps every letter as often as it occurs |
| Normalize.StripAppend | dictWorker.js:62 | the filter distributes over concatenation |
| Normalize.StripLetters | dictWorker.js:62 | the filter keeps a word over `a`-`z` whole |
| Normalize.StripLowerSpace | dictWorker.js:77 | one whitespace character, lower-cased and filtered, vanishes |
| Normalize.StripLowerSpaces | dictWorker.js:77 | whitespace, lower-cased and filtered, vanishes |
| Normalize.NormalizeQuery | dictWorker.js:83 | a normalised query term holds only `a`-`z` |
| Normalize.NormalizeQueryFolds | dictWorker.js:83 | a query term spelled in ASCII letters of either case normalises to the same term with every capital folded: no letter is lost, so `Apple` asks about `apple` |
| Normalize.LettersPrefixQuery | dictWorker.js:87 | a prefix of a word over `a`-`z`, asked as a query, normalises to itself |
| Normalize.CleanLine | dictWorker.js:59-62 | a kept line token holds only `a`-`z` |
| Normalize.NormalizeQueryIdempotent | dictWorker.js:87 | normalising a query term twice gives what normalising it once gives |
| Normalize.CleanLineIdempotent | dictWorker.js:59-62 | a kept token, cleaned again as a line, comes back unchanged; an empty token reads as a blank line |
| Normalize.LowerAroundTrim | dictWorker.js:59 | lower-casing a line is lower-casing what trim removes in front, what it keeps and what it removes behind |
| Normalize.StripAroundSpaces | dictWorker.js:59-62 | lower-cased whitespace on either side of a text leaves the filter's output unchanged |
| Normalize.CleanLineIsQuery | dictWorker.js:59-62 | a line is skipped exactly when it is all whitespace, and a kept line cleans to the query normalisation of the same raw text |
| Lines.Pieces | dictWorker.js:56 | splitting yields at least one piece |
| Lines.PiecesNoNewline | dictWorker.js:56 | no piece of the split holds a `\n` |
| Lines.JoinPieces | dictWorker.js:56 | joining the pieces with `\n` gives the text back, and no piece holds a `\n` |
| Lines.PiecesJoin | dictWorker.js:56 | splitting the `\n`-join of pieces that hold no `\n` gives those pieces back |
| Lines.PiecesAppend | dictWorker.js:55-56 | the pieces of a concatenation are those of both parts, with the last piece of the first glued to the first piece of the second |
| Lines.DropCRs | dictWorker.js:56 | line for line, a piece that ends in `\r` loses exactly that `\r`, and any other piece is kept whole; the number of lines is kept |
| Lines.DropCRsAppend | dictWorker.js:56 | dropping `\r` works line by line, so it distributes over concatenation |
| Lines.SplitLines | dictWorker.js:56-57 | line for line, the split is the text cut at every `\n`: as many lines as pieces, the last one kept whole, every other one its piece without its last character when that is a `\r`, and its piece unchanged otherwise; no line holds a `\n` |
| Lines.RestIsOnePiece | dictWorker.js:57 | the carried buffer splits into itself alone |
| Lines.CompleteAppend | dictWorker.js:55-57 | appending more text to the buffer finishes the buffer's own lines first: the complete lines of `a + b` are those of `a` and then those of its tail plus `b`, and the final tail agrees |
| Lines.RestNoNewline | dictWorker.js:57 | the carried buffer holds no `\n` |
| Lines.RestSuffix | dictWorker.js:57 | the carried buffer is the end of the text it was split from |
| Lines.TailOnly | dictWorker.js:76-80 | text without `\n` has no complete line and is all tail |
| Loader.FloorDiv | dictWorker.js:67 | the quotient is the floor of the rational quotient, for a divisor of either sign |
| Loader.EffectiveEstimate | dictWorker.js:67 | a given non-zero estimate is used as it is, a missing or zero one becomes 200000, and the result is positive unless a negative estimate was given |
| Loader.RoundBounds | dictWorker.js:67 | the rounded quotient is the nearest integer to `count * 100 / est`, halves rounded up. For a positive estimate it is never negative and reaches 99 exactly at 98.5 percent; for a negative estimate it is never above 0 |
| Loader.RoundPositive | dictWorker.js:67 | the rounding bounds for a positive estimate |
| Loader.RoundNegative | dictWorker.js:67 | the rounding bounds for a negative estimate |
| Loader.Percent | dictWorker.js:67 | the percentage is at most 99. With a positive estimate it is at least 0, it is 99 exactly when `count * 100 / est` is at least 98.5, and below 99 it is the nearest integer to `count * 100 / est`, halves rounded up. With a negative estimate it is at most 0 and is still that nearest integer |
| Loader.FloorDivMonotonic | dictWorker.js:67 | floor division by a positive divisor is monotonic in the dividend |
| Loader.PercentMonotonic | dictWorker.js:66-71 | with a positive estimate the percentage never falls as the count grows |
| Loader.Tally | dictWorker.js:64-72 | counting one line sets the tree and adds one to the count. It posts at most one progress message, appended after the earlier ones. It posts exactly when the new count is a multiple of 5000 and its percentage differs from the last one sent, and then the message carries that count and percentage, and the last percentage sent becomes it |
| Loader.Step | dictWorker.js:58-64 | a blank line changes nothing, any other line adds one to the count, and earlier progress messages are kept |
| Loader.StepAll | dictWorker.js:58-73 | the line loop never lowers the count and only appends progress messages |
| Loader.Feed | dictWorker.js:53-57 | after a chunk the carried buffer holds no `\n` and is the end of the old buffer plus the chunk; the count never falls, and progress messages are only appended |
| Loader.FeedAll | dictWorker.js:52-74 | after at least one chunk the buffer holds no `\n`; the count never falls, and progress messages are only appended |
| Loader.Finish | dictWorker.js:75-80 | the leftover buffer posts no progress and adds one to the count exactly when it is not blank |
| Loader.StepAllAppend | dictWorker.js:58-73 | running the line loop over `a + b` is running it over `a` and then over `b` |
| Loader.FeedThenRest | dictWorker.js:52-57 | feeding one chunk and then processing the text that follows equals processing all of it from the old buffer |
| Loader.FeedAllWhole | dictWorker.js:52-74 | the read loop over all chunks equals one line loop over the complete lines of the concatenated text, leaving its tail as the buffer |
| Loader.LoadIsWhole | dictWorker.js:51-81 | a load equals the line loop over the complete lines of the whole decoded text, followed by the leftover tail |
| Loader.ChunkIndependence | dictWorker.js:51-81 | any two chunkings of the same decoded text load the same tree, post the same progress and report the same count, even when a boundary splits a line or separates `\r` from `\n` |
| Loader.OneChunkSuffices | dictWorker.js:51-81 | a load in many chunks equals a load of the whole text as one chunk |
| Loader.CountNonBlank | dictWorker.js:58-64 | the number of non-blank lines is at most the number of lines |
| Loader.StepAllCount | dictWorker.js:58-64 | the line loop adds one to the count for each non-blank line and nothing for blank ones |
| Loader.Load | dictWorker.js:51-81 | the final `loaded` count is the number of non-blank lines of the decoded text, the unterminated tail included |
| Loader.YieldsMember | dictWorker.js:58-63 | every line whose cleaned token is non-empty yields that token |
| Loader.YieldsFrom | dictWorker.js:58-63 | conversely, a yielded word is non-empty and is the cleaned token of some line |
| Loader.NoLineYields | dictWorker.js:58-63 | a word that no line cleans to is not yielded |
| Loader.LoadedPrefix | dictWorker.js:58-78 | after a load, every prefix of a loaded token is a path of the tree |
| Loader.StepContains | dictWorker.js:58-63 | one line adds exactly its non-empty cleaned token to the stored words |
| Loader.StepAllContains | dictWorker.js:58-73 | after the line loop, a word is stored if and only if it was stored before or some line cleans to it |
| Loader.StepIsPrefix | dictWorker.js:59-63 | one line adds exactly the prefixes of its non-empty cleaned token to the tree's paths |
| Loader.StepAllIsPrefix | dictWorker.js:58-74 | after the line loop, a string is a path exactly when it was before or begins the cleaned token of some line |
| Loader.LoadIsPrefix | dictWorker.js:52-80 | the same if-and-only-if over a whole load, unterminated tail included |
| Loader.LoadContains | dictWorker.js:58-80 | after a load, a word is stored if and only if it was stored before or some line of the text, the tail included, cleans to it |
| Loader.StepAllValid | dictWorker.js:58-73 | the line loop keeps the tree valid |
| Loader.LoadValid | dictWorker.js:51-80 | a load keeps the tree valid; in particular, it never stores the empty word |
| Loader.TallyProgress | dictWorker.js:64-71 | counting one line keeps the progress invariant: messages only at multiples of 5000, each carrying that count's percentage, and no two consecutive messages with the same percentage |
| Loader.StepProgress | dictWorker.js:58-71 | one line through the loop keeps the progress invariant |
| Loader.StepAllProgress | dictWorker.js:58-73 | the line loop keeps the progress invariant |
| Loader.LoadProgress | dictWorker.js:66-71 | every progress message of a load has these properties: it comes at a positive multiple of 5000; its percentage is the one for that count, so at most 99; the first percentage is not 0; consecutive percentages differ; and its count is no larger than the final count |
| Loader.FaithfulIsIncreasing | dictWorker.js:66-71 | with a positive estimate, progress that obeys the invariant has percentages that rise strictly from 1 to at most 99 |
| Loader.LoadProgressIncreasing | dictWorker.js:66-71 | with a positive estimate, the progress percentages of a load rise strictly within 1 to 99, and so do their counts |
| Worker.DigitChar | dictWorker.js:46 | a digit below ten prints as a character `0`-`9` |
| Worker.Decimal | dictWorker.js:46 | a status prints as a non-empty string of decimal digits without a leading zero |
| Worker.DecimalRoundTrip | dictWorker.js:46 | reading the printed digits back gives the status |
| Worker.SourceUrl | dictWorker.js:43 | the URL fetched is never empty, and a non-empty `url` is fetched as given |
| Worker.ProgressReplies | dictWorker.js:70 | one `progress` message per progress event, in order, with its count and percentage, and none of them answers a query |
| Worker.Handle | dictWorker.js:38-90 | only a load changes the tree; a `contains` or `isPrefix` query gets exactly one reply of its own type that echoes its `id` and carries the tree's own answer for the normalised term; a message of any other type gets no reply |
| Worker.FailedLoad | dictWorker.js:45-48 | a fetch with a status outside 200-299 posts exactly one `error` message, `Fetch failed ` followed by digits that read back as the status, and no `progress` or `loaded` message; the tree is unchanged |
| Worker.SuccessfulLoad | dictWorker.js:49-81 | a successful load posts `progress` messages and then exactly one `loaded`, whose count is the number of non-blank lines; with a positive estimate the percentages rise strictly within 1 to 99 |
| Worker.LoadReplies | dictWorker.js:70-81 | the replies of a successful load end with `loaded`, and all earlier ones are `progress` messages; with increasing progress their percentages rise strictly within 1 to 99 |
| Worker.LoadedContainsAnswer | dictWorker.js:45-85 | after a successful load, `contains` answers true exactly when the normalised term was stored before or is the cleaned token of some line of the text, and false otherwise |
| Worker.LoadedIsPrefixAnswer | dictWorker.js:45-89 | after a successful load, `isPrefix` answers true exactly when the normalised term was a prefix before or begins the cleaned token of some line of the text, and false otherwise |
| Worker.LoadedLineIsFound | dictWorker.js:82-85 | after a load, a `contains` query on the raw text of any line with a non-empty token answers true |
| Worker.LoadedPrefixIsFound | dictWorker.js:86-89 | after a load, an `isPrefix` query on any prefix of a loaded token answers true |
| Worker.EmptyTermQueries | dictWorker.js:82-89 | on a tree the worker built, a term with no letter gets false from `contains` and true from `isPrefix` |
| Worker.HandleValid | dictWorker.js:38-90 | every message keeps the tree valid |
| Worker.Serve | dictWorker.js:38-90 | a run of messages with no load leaves the tree as it was |
| Worker.AnsweredAppend | dictWorker.js:85 | the query answers among concatenated replies are those of each part, in order |
| Worker.LoadAnswersNothing | dictWorker.js:41-81 | a load posts no query answer |
| Worker.HandleAnswers | dictWorker.js:82-89 | a message answers exactly its own query: one answer of its type and `id` for a query, none for anything else |
| Worker.EveryQueryAnswered | dictWorker.js:82-89 | over any sequence of messages, the query answers are exactly the queries asked, in order, each with its type and `id` |
| Worker.ServeValid | dictWorker.js:36-90 | from the initial empty tree, every tree the worker holds is valid, so `contains` of the empty word is always false |
| Scenario.ExampleLines | dictWorker.js:56-57 | the sample text splits into `Apple`, `  BANANA!!`, the empty line and `cherry` |
| Scenario.ExampleCount | dictWorker.js:58-81 | loading the sample reports count 3, because the blank line is not counted |
| Scenario.ExampleCherry | dictWorker.js:76-78 | after loading the sample, the unterminated last line `cherry` is stored |
| Scenario.ExampleFolded | dictWorker.js:58-63 | after loading the sample, `apple` and `banana` are stored: the capitals of `Apple` and `  BANANA!!` are folded, not dropped |
| Scenario.ExampleBan | dictWorker.js:18-33 | after loading the sample, `ban` is a prefix of the tree but not a stored word |
| Scenario.ExampleWorkerLoad | dictWorker.js:45-80 | loading the sample through the worker leaves `ban` a path of the tree but not a stored word |
| Scenario.ExampleBanQueries | dictWorker.js:82-89 | after the sample is loaded, a `contains` query for `Ban` answers false and an `isPrefix` query for it answers true |
| SampleTokens.ExampleCleanApple | dictWorker.js:59-62 | the line `Apple` cleans to `apple` |
| SampleTokens.ExampleCleanBanana | dictWorker.js:59-62 | the line `  BANANA!!` cleans to `banana` |
| SampleTokens.ExampleCleanCherry | dictWorker.js:59-62 | the line `cherry` cleans to itself |
| SampleTokens.QueryBetween | dictWorker.js:83 | text the filter drops entirely, on either side of a term, leaves the term's normalisation unchanged |

## Left out

- The transport is not modelled:
  - `fetch`, `res.body.getReader()` and `TextDecoder`. The model starts at the decoded text chunks and the HTTP status. Byte-level UTF-8 decoding across chunk boundaries is left out.
  - `postMessage`, `addEventListener` and `async`/`await`. Replies are a returned sequence.
- The `try`/`catch` at dictWorker.js:91-93 is left out. It turns a runtime exception, such as a rejected `fetch`, into an `error` message, and nothing in the pure model throws. A load that fails partway through therefore has no model.
- A `204` or `205` response, or any other ok response with a null body, makes `res.body.getReader()` throw (dictWorker.js:49). The source then posts an `error` from its `catch`. The model reads such a response as an empty chunk sequence and posts `loaded` with count 0.
- Worker.Serve hands every message the same fetch function, so two loads of the same URL within one run read the same response. A body that changes between loads is not modelled.
- Concurrency between a running load and queries is left out. Messages are handled one after another, each to completion.
- `Math.round` on floating point is replaced by exact rational rounding, halves rounded up. The two differ where the floating-point quotient lands just below a half, and this happens with the default estimate. At count 115000 the source computes `115000 / 200000 * 100` in IEEE double arithmetic as 57.49999999999999 and posts pct 57, while Loader.Percent gives 58, the exact rational value 57.5 rounded up. It is the only multiple of 5000 where the two differ for the default estimate; from 200000 on, both are clamped to 99.
- Estimates are integers. A non-integer or non-numeric `data.estimated` is not modelled. Zero and a missing value both become 200000, as `||` does.
- Message fields are typed. A `word`, `pref` or `url` that is not a string is not modelled, and `id` is a string.
- Normalize.Lower: characters are Unicode code points, not UTF-16 code units. `toLowerCase` is modelled only as far as it can change the `[a-z]` filter's output: `A`-`Z`, KELVIN SIGN to `k`, and LATIN CAPITAL LETTER I WITH DOT ABOVE to `i` plus a combining dot. Every other character is left as it is. The filter removes such a character whether or not it is lower-cased.
- `build_wordfreq_csv.py` is a separate offline script. It does file I/O and calls an external word-frequency library, so it is not part of this model.

=== FILE: alphabet.dfy ===
/** The working alphabet: the only characters ever stored on a trie edge. */
module Alphabet {

  predicate IsLetter(c: char)
  {
    'a' <= c <= 'z'
  }

  /** Every character of `s` is in `a`-`z`. */
  predicate IsLetters(s: string)
  {
    forall i :: 0 <= i < |s| ==> IsLetter(s[i])
  }
}

=== FILE: lines.dfy ===
/** Line splitting of dictWorker.js: `buf.split(/\r?\n/)`, with the last piece
    kept back as the carried buffer (`lines.pop()`). */
module Lines {

  /** `s` split at every `\n`; no piece contains `\n`, and there is always at least one. */
  function Pieces(s: string): (r: seq<string>)
    ensures |r| >= 1
    decreases |s|
  {
    if |s| == 0 then [""]
    else
      var rest := Pieces(s[1..]);
      if s[0] == '\n' then [""] + rest
      else [[s[0]] + rest[0]] + rest[1..]
  }

  predicate NoNewline(s: string)
  {
    '\n' !in s
  }

  predicate AllNoNewline(ps: seq<string>)
  {
    forall i :: 0 <= i < |ps| ==> NoNewline(ps[i])
  }

  /** The pieces glued back together with `\n`. */
  function Join(ps: seq<string>): string
    requires |ps| >= 1
    decreases |ps|
  {
    if |ps| == 1 then ps[0] else ps[0] + "\n" + Join(ps[1..])
  }

  /** No piece of a split holds a `\n`. */
  lemma {:induction false} PiecesNoNewline(s: string)
    ensures AllNoNewline(Pieces(s))
    decreases |s|
  {
    if |s| > 0 {
      PiecesNoNewline(s[1..]);
      var rest := Pieces(s[1..]);
      if s[0] != '\n' {
        var r := Pieces(s);
        assert r[1..] == rest[1..];
        assert NoNewline(r[0]) by {
          assert r[0] == [s[0]] + rest[0];
          assert NoNewline(rest[0]);
        }
        forall i | 0 <= i < |r|
          ensures NoNewline(r[i])
        {
          if i > 0 {
            assert r[i] == rest[i];
          }
        }
      }
    }
  }

  /** Splitting loses nothing: joining the pieces gives the text back, and no piece holds a `\n`. */
  lemma {:induction false} JoinPieces(s: string)
    ensures Join(Pieces(s)) == s
    ensures AllNoNewline(Pieces(s))
    decreases |s|
  {
    PiecesNoNewline(s);
    if |s| > 0 {
      JoinPieces(s[1..]);
      var rest := Pieces(s[1..]);
      var r := Pieces(s);
      assert s == [s[0]] + s[1..];
      if s[0] == '\n' {
        assert r[1..] == rest;
      } else {
        assert r[0] == [s[0]] + rest[0];
        if |rest| == 1 {
          assert Join(r) == [s[0]] + rest[0];
        } else {
          assert r[1..] == rest[1..];
          assert Join(r) == [s[0]] + rest[0] + "\n" + Join(rest[1..]);
        }
      }
    }
  }

  /** Splitting is the inverse of joining pieces that hold no `\n`. */
  lemma {:induction false} PiecesJoin(ps: seq<string>)
    requires |ps| >= 1 && AllNoNewline(ps)
    ensures Pieces(Join(ps)) == ps
    decreases |ps|, |ps[0]|
  {
    if |ps[0]| > 0 {
      var s := Join(ps);
      var tail := [ps[0][1..]] + ps[1..];
      assert s[0] == ps[0][0] != '\n';
      assert s[1..] == Join(tail) by {
        if |ps| > 1 {
          assert tail[1..] == ps[1..];
        }
      }
      PiecesJoin(tail);
      assert ps[0] == [ps[0][0]] + tail[0];
      assert ps == [[ps[0][0]] + tail[0]] + tail[1..];
    } else if |ps| > 1 {
      var s := Join(ps);
      assert s == "\n" + Join(ps[1..]);
      assert s[1..] == Join(ps[1..]);
      PiecesJoin(ps[1..]);
      assert ps == [""] + ps[1..];
    }
  }

  /** The pieces of `a + b` given those of `a` and `b`: the last piece of `a`
      is glued to the first piece of `b`. */
  function Glue(pa: seq<string>, pb: seq<string>): seq<string>
    requires |pa| >= 1 && |pb| >= 1
  {
    pa[..|pa| - 1] + [pa[|pa| - 1] + pb[0]] + pb[1..]
  }

  lemma GlueNewline(pa: seq<string>, pb: seq<string>)
    requires |pa| >= 1 && |pb| >= 1
    ensures Glue([""] + pa, pb) == [""] + Glue(pa, pb)
  {
    var r := [""] + pa;
    assert r[..|r| - 1] == [""] + pa[..|pa| - 1];
  }

  lemma GlueChar(c: char, pa: seq<string>, pb: seq<string>)
    requires |pa| >= 1 && |pb| >= 1
    ensures var g := Glue(pa, pb);
            Glue([[c] + pa[0]] + pa[1..], pb) == [[c] + g[0]] + g[1..]
  {
    var g := Glue(pa, pb);
    var r := [[c] + pa[0]] + pa[1..];
    if |pa| == 1 {
      assert r == [[c] + pa[0]];
      assert g == [pa[0] + pb[0]] + pb[1..];
      assert Glue(r, pb) == [([c] + pa[0]) + pb[0]] + pb[1..];
      assert ([c] + pa[0]) + pb[0] == [c] + (pa[0] + pb[0]);
    } else {
      assert r[..|r| - 1] == [[c] + pa[0]] + pa[1..|pa| - 1];
      assert g[0] == pa[0];
      assert g[1..] == pa[1..|pa| - 1] + [pa[|pa| - 1] + pb[0]] + pb[1..];
    }
  }

  /** Splitting a concatenation glues the last piece of `a` to the first piece of `b`. */
  lemma {:induction false} PiecesAppend(a: string, b: string)
    ensures Pieces(a + b) == Glue(Pieces(a), Pieces(b))
    decreases |a|
  {
    if |a| == 0 {
      assert a + b == b;
      var pb := Pieces(b);
      assert "" + pb[0] == pb[0];
      assert Glue([""], pb) == [pb[0]] + pb[1..] == pb;
    } else {
      assert (a + b)[0] == a[0] && (a + b)[1..] == a[1..] + b;
      PiecesAppend(a[1..], b);
      if a[0] == '\n' {
        GlueNewline(Pieces(a[1..]), Pieces(b));
      } else {
        GlueChar(a[0], Pieces(a[1..]), Pieces(b));
      }
    }
  }

  function Last<T>(xs: seq<T>): T
    requires |xs| >= 1
  {
    xs[|xs| - 1]
  }

  function AllButLast<T>(xs: seq<T>): seq<T>
    requires |xs| >= 1
  {
    xs[..|xs| - 1]
  }

  /** The piece ends in a carriage return. */
  predicate EndsInCR(piece: string)
  {
    |piece| > 0 && piece[|piece| - 1] == '\r'
  }

  /** A complete line loses the one `\r` the separator `\r?\n` swallows. */
  function DropCR(piece: string): string
  {
    if EndsInCR(piece) then piece[..|piece| - 1] else piece
  }

  /** Every complete line, with the `\r` its separator swallowed dropped. */
  function DropCRs(ps: seq<string>): (r: seq<string>)
    ensures |r| == |ps|
    ensures forall i :: 0 <= i < |ps| ==>
              if EndsInCR(ps[i]) then ps[i] == r[i] + "\r" else r[i] == ps[i]
    decreases |ps|
  {
    if |ps| == 0 then [] else [DropCR(ps[0])] + DropCRs(ps[1..])
  }

  lemma {:induction false} DropCRsAppend(a: seq<string>, b: seq<string>)
    ensures DropCRs(a + b) == DropCRs(a) + DropCRs(b)
    decreases |a|
  {
    if |a| == 0 {
      assert a + b == b;
    } else {
      assert (a + b)[0] == a[0] && (a + b)[1..] == a[1..] + b;
      DropCRsAppend(a[1..], b);
    }
  }

  /** The newline-terminated lines of `s`, separators removed. */
  function Complete(s: string): seq<string>
  {
    DropCRs(AllButLast(Pieces(s)))
  }

  /** The unterminated tail of `s`: what `lines.pop()` keeps as the buffer. */
  function Rest(s: string): string
  {
    Last(Pieces(s))
  }

  /** `s.split(/\r?\n/)`: the complete lines followed by the tail. Line for line
      the result is the text cut at every `\n`; a complete line whose `\n` had a
      `\r` before it loses that `\r`, any other is kept whole; no line holds a `\n`. */
  function SplitLines(s: string): (r: seq<string>)
    ensures |r| == |Pieces(s)| && Last(r) == Last(Pieces(s))
    ensures forall i :: 0 <= i < |r| - 1 ==>
              if EndsInCR(Pieces(s)[i]) then Pieces(s)[i] == r[i] + "\r" else r[i] == Pieces(s)[i]
    ensures AllNoNewline(r)
  {
    var ps := Pieces(s);
    JoinPieces(s);
    assert forall i :: 0 <= i < |ps| - 1 ==> AllButLast(ps)[i] == ps[i];
    Complete(s) + [Rest(s)]
  }

  /** The carried tail never holds a `\n`, so it is a single piece. */
  lemma RestIsOnePiece(a: string)
    ensures Pieces(Rest(a)) == [Rest(a)]
  {
    JoinPieces(a);
    PiecesJoin([Rest(a)]);
  }

  /** Appending `b` to the text finishes the lines of `a` first: the complete
      lines of `a + b` are those of `a` followed by those of its tail with `b`
      appended, and the final tail is the same either way. This is what lets the
      loader carry only the tail between chunks. */
  lemma CompleteAppend(a: string, b: string)
    ensures Complete(a + b) == Complete(a) + Complete(Rest(a) + b)
    ensures Rest(a + b) == Rest(Rest(a) + b)
  {
    var pa, pb := Pieces(a), Pieces(b);
    var t := Rest(a);
    var q := Pieces(t + b);
    var whole := Pieces(a + b);
    assert q == [t + pb[0]] + pb[1..] by {
      PiecesAppend(t, b);
      RestIsOnePiece(a);
    }
    assert whole == AllButLast(pa) + q by {
      PiecesAppend(a, b);
    }
    assert AllButLast(whole) == AllButLast(pa) + AllButLast(q);
    assert Last(whole) == Last(q);
    DropCRsAppend(AllButLast(pa), AllButLast(q));
  }

  /** The carried tail holds no `\n`. */
  lemma RestNoNewline(a: string)
    ensures NoNewline(Rest(a))
  {
    JoinPieces(a);
  }

  /** The carried tail is the end of the text it was split from. */
  lemma {:induction false} RestSuffix(s: string)
    ensures |Rest(s)| <= |s| && Rest(s) == s[|s| - |Rest(s)|..]
    decreases |s|
  {
    if |s| > 0 {
      var t := s[1..];
      var rest := Pieces(t);
      var r := Rest(s);
      RestSuffix(t);
      if s[0] != '\n' && |rest| == 1 {
        assert r == [s[0]] + rest[0] by {
          assert Pieces(s) == [[s[0]] + rest[0]];
        }
        assert rest[0] == t by {
          JoinPieces(t);
        }
        assert s == [s[0]] + t;
      } else {
        assert r == Rest(t) by {
          if s[0] == '\n' {
            assert Pieces(s) == [""] + rest;
          } else {
            assert Pieces(s) == [[s[0]] + rest[0]] + rest[1..];
          }
        }
        assert t[|t| - |r|..] == s[|s| - |r|..];
      }
    }
  }

  /** Text without a `\n` has no complete line and is all tail. */
  lemma TailOnly(t: string)
    requires NoNewline(t)
    ensures Complete(t) == [] && Rest(t) == t
  {
    PiecesJoin([t]);
  }
}

=== FILE: loader.dfy ===
/** The streaming load of dictWorker.js: decoded chunks are appended to a
    carried buffer, complete lines are normalised, inserted and counted, progress
    is reported every 5000 counted lines, and the unterminated tail is processed
    at the end of the stream. The whole load is a fold over the decoded chunks. */
module Loader {
  import opened Wrappers
  import opened Alphabet
  import opened Trie
  import opened Normalize
  import opened Lines

  /** The expected number of lines, used only for the progress percentage.
      Never zero: `data.estimated || 200000` replaces a zero or missing value. */
  type Estimate = e: int | e != 0 witness 200000

  const DefaultEstimate: Estimate := 200000

  /** Progress is considered once every this many counted lines. */
  const ProgressEvery: nat := 5000

  /** `data.estimated || 200000` for an integer field: a given non-zero estimate
      is used as it is, a missing or zero one becomes the default, and the
      result is positive unless a negative estimate was given. */
  function EffectiveEstimate(given: Option<int>): (e: Estimate)
    ensures given.Some? && given.value != 0 ==> e == given.value
    ensures given.None? || given.value == 0 ==> e == DefaultEstimate
    ensures e > 0 <==> given.None? || given.value >= 0
  {
    if given.Some? && given.value != 0 then given.value else DefaultEstimate
  }

  /** The floor of the rational `n / d`, for a divisor of either sign. */
  function FloorDiv(n: int, d: int): (q: int)
    requires d != 0
    ensures d > 0 ==> d * q <= n < d * q + d
    ensures d < 0 ==> d * q >= n > d * q + d
  {
    if d > 0 then n / d else (-n) / (-d)
  }

  lemma MulSign(d: int, k: int)
    ensures d > 0 && k >= 0 ==> d * k >= 0
    ensures d < 0 && k >= 0 ==> d * k <= 0
  {
  }

  /** `d * k` against `d * j` for a positive `d`: the product keeps the order of the factors. */
  lemma MulOrder(d: int, k: int, j: int)
    requires d > 0
    ensures k <= j ==> d * k <= d * j
  {
    MulSign(d, j - k);
    assert d * (j - k) == d * j - d * k;
  }

  /** Multiplying out the bounds of the rounded quotient. */
  lemma Expand(q: int, est: int)
    ensures (2 * est) * q == 2 * (q * est)
    ensures (2 * q - 1) * est == 2 * (q * est) - est
    ensures (2 * q + 1) * est == 2 * (q * est) + est
  {
  }

  /** For a positive estimate, the rounded quotient `(200 * count + est) / (2 * est)`
      is the nearest integer to `count * 100 / est`, halves rounded up, never
      negative, and reaches 99 exactly when `count * 100 / est` is at least 98.5. */
  lemma RoundPositive(count: nat, est: int, q: int)
    requires est > 0 && q == FloorDiv(200 * count + est, 2 * est)
    ensures 0 <= q && (q >= 99 <==> 197 * est <= 200 * count)
    ensures (2 * q - 1) * est <= 200 * count < (2 * q + 1) * est
  {
    var d := 2 * est;
    Expand(q, est);
    assert d * q <= 200 * count + est < d * q + d;
    assert q >= 99 ==> d * 99 <= d * q by { MulOrder(d, 99, q); }
    assert q <= 98 ==> d * q <= d * 98 by { MulOrder(d, q, 98); }
    assert q <= -1 ==> d * q <= d * -1 by { MulOrder(d, q, -1); }
  }

  /** For a negative estimate the rounded quotient is never above 0, and it is
      still the nearest integer to `count * 100 / est`, halves rounded up. */
  lemma RoundNegative(count: nat, est: int, q: int)
    requires est < 0 && q == FloorDiv(200 * count + est, 2 * est)
    ensures q <= 0
    ensures (2 * q - 1) * est >= 200 * count > (2 * q + 1) * est
  {
    var d := 2 * est;
    Expand(q, est);
    assert d * q >= 200 * count + est > d * q + d;
    assert q >= 1 ==> d * q <= d by {
      MulSign(d, q - 1);
      assert d * (q - 1) == d * q - d;
    }
  }

  lemma RoundBounds(count: nat, est: int, q: int)
    requires est != 0 && q == FloorDiv(200 * count + est, 2 * est)
    ensures est > 0 ==> 0 <= q && (q >= 99 <==> 197 * est <= 200 * count)
    ensures est > 0 ==> (2 * q - 1) * est <= 200 * count < (2 * q + 1) * est
    ensures est < 0 ==> q <= 0 && (2 * q - 1) * est >= 200 * count > (2 * q + 1) * est
  {
    if est > 0 {
      RoundPositive(count, est, q);
    } else {
      RoundNegative(count, est, q);
    }
  }

  /** `Math.min(99, Math.round((count / est) * 100))` computed on exact rationals:
      `Math.round(x)` is the floor of `x + 1/2`, and `count * 100 / est + 1/2`
      is `(200 * count + est) / (2 * est)`. */
  function Percent(count: nat, est: Estimate): (pct: int)
    ensures pct <= 99
    ensures est > 0 ==> 0 <= pct && (pct == 99 <==> 197 * est <= 200 * count)
    ensures est > 0 && pct < 99 ==> (2 * pct - 1) * est <= 200 * count < (2 * pct + 1) * est
    ensures est < 0 ==> pct <= 0 && (2 * pct - 1) * est >= 200 * count > (2 * pct + 1) * est
  {
    var rounded := FloorDiv(200 * count + est, 2 * est);
    RoundBounds(count, est, rounded);
    if rounded < 99 then rounded else 99
  }

  lemma FloorDivMonotonic(n1: int, n2: int, d: int)
    requires d > 0 && n1 <= n2
    ensures FloorDiv(n1, d) <= FloorDiv(n2, d)
  {
    var q1, q2 := FloorDiv(n1, d), FloorDiv(n2, d);
    MulSign(d, q1 - q2 - 1);
    assert d * (q1 - q2 - 1) == d * q1 - d * q2 - d;
  }

  /** With a positive estimate the percentage never goes down as the count grows. */
  lemma PercentMonotonic(c1: nat, c2: nat, est: Estimate)
    requires est > 0 && c1 <= c2
    ensures Percent(c1, est) <= Percent(c2, est)
  {
    FloorDivMonotonic(200 * c1 + est, 200 * c2 + est, 2 * est);
  }

  /** One `progress` message: the lines counted so far and the percentage. */
  datatype Progress = Progress(loaded: nat, pct: int)

  /** The state of one load: the growing trie, `count`, `lastProgressSent`,
      and the progress messages posted so far. */
  datatype Ingest = Ingest(trie: Node, count: nat, lastPct: int, progress: seq<Progress>)

  /** A load starts on the worker's current trie with `count = 0, lastProgressSent = 0`. */
  function Begin(t: Node): Ingest
  {
    Ingest(t, 0, 0, [])
  }

  /** Counting one line that was not blank, with trie `t` after its insert:
      on every 5000th count a progress message is posted unless its percentage
      repeats the last one sent. */
  function Tally(st: Ingest, est: Estimate, t: Node): (r: Ingest)
    ensures r.trie == t && r.count == st.count + 1
    ensures st.progress <= r.progress && |r.progress| <= |st.progress| + 1
    ensures |r.progress| > |st.progress| <==> r.count % ProgressEvery == 0 && Percent(r.count, est) != st.lastPct
    ensures |r.progress| > |st.progress| ==>
              Last(r.progress) == Progress(r.count, Percent(r.count, est)) && r.lastPct == Last(r.progress).pct
    ensures |r.progress| == |st.progress| ==> r.lastPct == st.lastPct
  {
    var count := st.count + 1;
    var pct := Percent(count, est);
    if count % ProgressEvery == 0 && pct != st.lastPct then
      Ingest(t, count, pct, st.progress + [Progress(count, pct)])
    else
      Ingest(t, count, st.lastPct, st.progress)
  }

  /** One complete line through the body of the line loop: a blank line is
      skipped uncounted; any other has its filtered form inserted when that is
      non-empty, and is counted. */
  function Step(st: Ingest, est: Estimate, line: string): (r: Ingest)
    ensures AllSpace(line) ==> r == st
    ensures !AllSpace(line) ==> r.count == st.count + 1
    ensures st.progress <= r.progress
  {
    CleanLineIsQuery(line);
    match CleanLine(line)
    case None => st
    case Some(clean) => Tally(st, est, if |clean| > 0 then Insert(st.trie, clean) else st.trie)
  }

  /** The line loop over `lines`, in order. */
  function StepAll(st: Ingest, est: Estimate, lines: seq<string>): (r: Ingest)
    ensures st.count <= r.count && st.progress <= r.progress
    decreases |lines|
  {
    if |lines| == 0 then st else Step(StepAll(st, est, AllButLast(lines)), est, Last(lines))
  }

  lemma {:induction false} StepAllAppend(st: Ingest, est: Estimate, a: seq<string>, b: seq<string>)
    ensures StepAll(st, est, a + b) == StepAll(StepAll(st, est, a), est, b)
    decreases |b|
  {
    if |b| == 0 {
      assert a + b == a;
    } else {
      var init := AllButLast(b);
      assert AllButLast(a + b) == a + init && Last(a + b) == Last(b);
      StepAllAppend(st, est, a, init);
      assert StepAll(st, est, a + b) == Step(StepAll(st, est, a + init), est, Last(b));
    }
  }

  /** The carried buffer and the load state between two reads. */
  datatype Reader = Reader(buf: string, st: Ingest)

  /** One decoded chunk: append it to the buffer, split, keep the unterminated
      tail as the new buffer and run the line loop over the complete lines. */
  function Feed(rd: Reader, est: Estimate, chunk: string): (r: Reader)
    ensures NoNewline(r.buf)
    ensures var text := rd.buf + chunk; |r.buf| <= |text| && r.buf == text[|text| - |r.buf|..]
    ensures rd.st.count <= r.st.count && rd.st.progress <= r.st.progress
  {
    var text := rd.buf + chunk;
    RestNoNewline(text);
    RestSuffix(text);
    Reader(Rest(text), StepAll(rd.st, est, Complete(text)))
  }

  /** The read loop over the decoded chunks, in order. */
  function FeedAll(rd: Reader, est: Estimate, chunks: seq<string>): (r: Reader)
    ensures (|chunks| > 0 || NoNewline(rd.buf)) ==> NoNewline(r.buf)
    ensures rd.st.count <= r.st.count && rd.st.progress <= r.st.progress
    decreases |chunks|
  {
    if |chunks| == 0 then rd else FeedAll(Feed(rd, est, chunks[0]), est, chunks[1..])
  }

  /** The decoded text of the whole stream. */
  function Concat(chunks: seq<string>): string
    decreases |chunks|
  {
    if |chunks| == 0 then "" else chunks[0] + Concat(chunks[1..])
  }

  /** End of stream: a non-blank leftover buffer is processed as one more
      counted line, without a progress check. */
  function Finish(rd: Reader): (r: Ingest)
    ensures r.progress == rd.st.progress
    ensures r.count == rd.st.count + (if AllSpace(rd.buf) then 0 else 1)
  {
    CleanLineIsQuery(rd.buf);
    match CleanLine(rd.buf)
    case None => rd.st
    case Some(clean) =>
      var t := if |clean| > 0 then Insert(rd.st.trie, clean) else rd.st.trie;
      rd.st.(trie := t, count := rd.st.count + 1)
  }

  /** What a successful load leaves behind: the grown trie, the progress
      messages in order, and the count the final `loaded` message carries. */
  datatype Report = Report(trie: Node, progress: seq<Progress>, count: nat)

  /** A whole load of the decoded chunks into trie `t`. The final `loaded`
      count is the number of non-blank lines of the decoded text, the
      unterminated tail included: blank lines count nothing, and lines with no
      letter count although they insert nothing. */
  function Load(t: Node, est: Estimate, chunks: seq<string>): (r: Report)
    ensures r.count == CountNonBlank(SplitLines(Concat(chunks)))
  {
    var text := Concat(chunks);
    FeedAllWhole(Reader("", Begin(t)), est, chunks);
    assert "" + text == text;
    StepAllCount(Begin(t), est, Complete(text));
    var st := Finish(FeedAll(Reader("", Begin(t)), est, chunks));
    Report(st.trie, st.progress, st.count)
  }

  /** Feeding one chunk and then running the line loop over the text that
      follows equals running it over all the text: the carried tail is exactly
      what the next lines need. */
  lemma FeedThenRest(rd: Reader, est: Estimate, chunk: string, rest: string)
    ensures var next := Feed(rd, est, chunk);
            var text := rd.buf + chunk + rest;
            && Rest(next.buf + rest) == Rest(text)
            && StepAll(next.st, est, Complete(next.buf + rest)) == StepAll(rd.st, est, Complete(text))
  {
    var a := rd.buf + chunk;
    CompleteAppend(a, rest);
    StepAllAppend(rd.st, est, Complete(a), Complete(Rest(a) + rest));
  }

  /** Reading chunk by chunk is the same as running the line loop once over the
      complete lines of all the text read, carrying only its tail. */
  lemma {:induction false} FeedAllWhole(rd: Reader, est: Estimate, chunks: seq<string>)
    requires NoNewline(rd.buf)
    ensures var text := rd.buf + Concat(chunks);
            FeedAll(rd, est, chunks) == Reader(Rest(text), StepAll(rd.st, est, Complete(text)))
    decreases |chunks|
  {
    if |chunks| == 0 {
      TailOnly(rd.buf);
      assert rd.buf + Concat(chunks) == rd.buf;
    } else {
      var more := Concat(chunks[1..]);
      var next := Feed(rd, est, chunks[0]);
      assert NoNewline(next.buf) by {
        RestNoNewline(rd.buf + chunks[0]);
      }
      assert FeedAll(rd, est, chunks) == FeedAll(next, est, chunks[1..]);
      FeedAllWhole(next, est, chunks[1..]);
      FeedThenRest(rd, est, chunks[0], more);
      assert rd.buf + Concat(chunks) == rd.buf + chunks[0] + more;
    }
  }

  /** A load is the line loop over the complete lines of the decoded text,
      followed by its tail. */
  lemma LoadIsWhole(t: Node, est: Estimate, chunks: seq<string>)
    ensures var text := Concat(chunks);
            var st := Finish(Reader(Rest(text), StepAll(Begin(t), est, Complete(text))));
            Load(t, est, chunks) == Report(st.trie, st.progress, st.count)
  {
    FeedAllWhole(Reader("", Begin(t)), est, chunks);
    assert "" + Concat(chunks) == Concat(chunks);
  }

  /** Where the chunk boundaries fall does not matter: any two chunkings of the
      same decoded text, including one that splits a line or separates `\r` from
      `\n`, load the same trie, post the same progress and report the same count. */
  lemma ChunkIndependence(t: Node, est: Estimate, xs: seq<string>, ys: seq<string>)
    requires Concat(xs) == Concat(ys)
    ensures Load(t, est, xs) == Load(t, est, ys)
  {
    LoadIsWhole(t, est, xs);
    LoadIsWhole(t, est, ys);
  }

  /** In particular, a load in many chunks equals a load of the whole text at once. */
  lemma OneChunkSuffices(t: Node, est: Estimate, chunks: seq<string>)
    ensures Load(t, est, chunks) == Load(t, est, [Concat(chunks)])
  {
    assert Concat([Concat(chunks)]) == Concat(chunks) + "";
    ChunkIndependence(t, est, chunks, [Concat(chunks)]);
  }

  /** The number of lines that are not blank. */
  function CountNonBlank(lines: seq<string>): (n: nat)
    ensures n <= |lines|
    decreases |lines|
  {
    if |lines| == 0 then 0
    else CountNonBlank(AllButLast(lines)) + (if AllSpace(Last(lines)) then 0 else 1)
  }

  lemma {:induction false} StepAllCount(st: Ingest, est: Estimate, lines: seq<string>)
    ensures StepAll(st, est, lines).count == st.count + CountNonBlank(lines)
    decreases |lines|
  {
    if |lines| > 0 {
      StepAllCount(st, est, AllButLast(lines));
      CleanLineIsQuery(Last(lines));
    }
  }

  /** Some line of `lines` cleans to the non-empty token `w`. */
  ghost predicate Yields(lines: seq<string>, w: string)
    decreases |lines|
  {
    && |lines| > 0
    && (Yields(AllButLast(lines), w) || (|w| > 0 && CleanLine(Last(lines)) == Some(w)))
  }

  /** Every line of `lines` with a non-empty cleaned token yields that token. */
  lemma {:induction false} YieldsMember(lines: seq<string>, line: string)
    requires line in lines && CleanLine(line).Some? && |CleanLine(line).value| > 0
    ensures Yields(lines, CleanLine(line).value)
    decreases |lines|
  {
    if line != Last(lines) {
      assert lines == AllButLast(lines) + [Last(lines)];
      YieldsMember(AllButLast(lines), line);
    }
  }

  /** The converse of `YieldsMember`: a yielded word is the non-empty cleaned
      token of some line. */
  lemma {:induction false} YieldsFrom(lines: seq<string>, w: string)
    requires Yields(lines, w)
    ensures |w| > 0 && exists i :: 0 <= i < |lines| && CleanLine(lines[i]) == Some(w)
    decreases |lines|
  {
    if Yields(AllButLast(lines), w) {
      YieldsFrom(AllButLast(lines), w);
      var i :| 0 <= i < |lines| - 1 && CleanLine(AllButLast(lines)[i]) == Some(w);
      assert lines[i] == AllButLast(lines)[i];
    } else {
      assert CleanLine(lines[|lines| - 1]) == Some(w);
    }
  }

  /** After a load, every prefix of a loaded token is a path of the tree. */
  lemma LoadedPrefix(t: Node, est: Estimate, chunks: seq<string>, line: string, p: string)
    requires line in SplitLines(Concat(chunks))
    requires CleanLine(line).Some? && |CleanLine(line).value| > 0
    requires p <= CleanLine(line).value
    ensures IsPrefix(Load(t, est, chunks).trie, p)
  {
    var w := CleanLine(line).value;
    var after := Load(t, est, chunks).trie;
    YieldsMember(SplitLines(Concat(chunks)), line);
    LoadContains(t, est, chunks, w);
    ContainsIsPrefix(after, w);
    PrefixClosed(after, w, p);
  }

  /** A word no line cleans to is not yielded. */
  lemma NoLineYields(lines: seq<string>, w: string)
    requires forall i :: 0 <= i < |lines| ==> CleanLine(lines[i]) != Some(w)
    ensures !Yields(lines, w)
  {
    if Yields(lines, w) {
      YieldsFrom(lines, w);
    }
  }

  lemma StepContains(st: Ingest, est: Estimate, line: string, w: string)
    ensures Contains(Step(st, est, line).trie, w)
        <==> Contains(st.trie, w) || (|w| > 0 && CleanLine(line) == Some(w))
  {
    if CleanLine(line).Some? && |CleanLine(line).value| > 0 {
      InsertContains(st.trie, CleanLine(line).value, w);
    }
  }

  lemma {:induction false} StepAllContains(st: Ingest, est: Estimate, lines: seq<string>, w: string)
    ensures Contains(StepAll(st, est, lines).trie, w) <==> Contains(st.trie, w) || Yields(lines, w)
    decreases |lines|
  {
    if |lines| > 0 {
      var init := AllButLast(lines);
      var prev := StepAll(st, est, init);
      assert StepAll(st, est, lines) == Step(prev, est, Last(lines));
      StepAllContains(st, est, init, w);
      StepContains(prev, est, Last(lines), w);
    }
  }

  /** After a load the trie holds exactly what it held before plus the
      non-empty cleaned token of every line of the text, the tail included. */
  lemma LoadContains(t: Node, est: Estimate, chunks: seq<string>, w: string)
    ensures Contains(Load(t, est, chunks).trie, w) <==> Contains(t, w) || Yields(SplitLines(Concat(chunks)), w)
  {
    var text := Concat(chunks);
    var lines := Complete(text);
    var st := StepAll(Begin(t), est, lines);
    LoadIsWhole(t, est, chunks);
    StepAllContains(Begin(t), est, lines, w);
    var c := CleanLine(Rest(text));
    if c.Some? && |c.value| > 0 {
      InsertContains(st.trie, c.value, w);
    }
    assert AllButLast(SplitLines(text)) == lines;
  }

  /** `p` begins the non-empty cleaned token of some line of `lines`. */
  ghost predicate PrefixYields(lines: seq<string>, p: string)
    decreases |lines|
  {
    && |lines| > 0
    && (|| PrefixYields(AllButLast(lines), p)
        || (CleanLine(Last(lines)).Some? && |CleanLine(Last(lines)).value| > 0 && p <= CleanLine(Last(lines)).value))
  }

  lemma StepIsPrefix(st: Ingest, est: Estimate, line: string, p: string)
    ensures IsPrefix(Step(st, est, line).trie, p)
        <==> IsPrefix(st.trie, p) || (CleanLine(line).Some? && |CleanLine(line).value| > 0 && p <= CleanLine(line).value)
  {
    if CleanLine(line).Some? && |CleanLine(line).value| > 0 {
      InsertIsPrefix(st.trie, CleanLine(line).value, p);
    }
  }

  lemma {:induction false} StepAllIsPrefix(st: Ingest, est: Estimate, lines: seq<string>, p: string)
    ensures IsPrefix(StepAll(st, est, lines).trie, p) <==> IsPrefix(st.trie, p) || PrefixYields(lines, p)
    decreases |lines|
  {
    if |lines| > 0 {
      var init := AllButLast(lines);
      var prev := StepAll(st, est, init);
      assert StepAll(st, est, lines) == Step(prev, est, Last(lines));
      StepAllIsPrefix(st, est, init, p);
      StepIsPrefix(prev, est, Last(lines), p);
    }
  }

  /** After a load the trie's paths are exactly its paths before plus the
      prefixes of the non-empty cleaned token of every line, the tail included. */
  lemma LoadIsPrefix(t: Node, est: Estimate, chunks: seq<string>, p: string)
    ensures IsPrefix(Load(t, est, chunks).trie, p) <==> IsPrefix(t, p) || PrefixYields(SplitLines(Concat(chunks)), p)
  {
    var text := Concat(chunks);
    var lines := Complete(text);
    var st := StepAll(Begin(t), est, lines);
    LoadIsWhole(t, est, chunks);
    StepAllIsPrefix(Begin(t), est, lines, p);
    var c := CleanLine(Rest(text));
    if c.Some? && |c.value| > 0 {
      InsertIsPrefix(st.trie, c.value, p);
    }
    assert AllButLast(SplitLines(text)) == lines;
  }

  /** A load keeps the trie valid: it only ever inserts non-empty words over `a`-`z`. */
  lemma {:induction false} StepAllValid(st: Ingest, est: Estimate, lines: seq<string>)
    requires Valid(st.trie)
    ensures Valid(StepAll(st, est, lines).trie)
    decreases |lines|
  {
    if |lines| > 0 {
      var prev := StepAll(st, est, AllButLast(lines));
      StepAllValid(st, est, AllButLast(lines));
      var c := CleanLine(Last(lines));
      if c.Some? && |c.value| > 0 {
        InsertValid(prev.trie, c.value);
      }
    }
  }

  lemma LoadValid(t: Node, est: Estimate, chunks: seq<string>)
    requires Valid(t)
    ensures Valid(Load(t, est, chunks).trie)
  {
    var text := Concat(chunks);
    var st := StepAll(Begin(t), est, Complete(text));
    LoadIsWhole(t, est, chunks);
    StepAllValid(Begin(t), est, Complete(text));
    var c := CleanLine(Rest(text));
    if c.Some? && |c.value| > 0 {
      InsertValid(st.trie, c.value);
    }
  }

  function LastPct(ps: seq<Progress>): int
  {
    if |ps| == 0 then 0 else Last(ps).pct
  }

  /** The progress messages of a load, for any estimate: each is posted at a
      multiple of 5000 counted lines, carries the percentage for that count
      (so at most 99), differs in percentage from the message before it, and
      the first is not 0, the initial `lastProgressSent`. */
  ghost predicate ProgressFaithful(ps: seq<Progress>, est: Estimate)
  {
    && (forall i :: 0 <= i < |ps| ==>
          ps[i].loaded > 0 && ps[i].loaded % ProgressEvery == 0 && ps[i].pct == Percent(ps[i].loaded, est))
    && (forall i :: 1 <= i < |ps| ==> ps[i - 1].loaded < ps[i].loaded && ps[i - 1].pct != ps[i].pct)
    && (|ps| > 0 ==> ps[0].pct != 0)
  }

  ghost predicate ProgressInvariant(st: Ingest, est: Estimate)
  {
    && ProgressFaithful(st.progress, est)
    && st.lastPct == LastPct(st.progress)
    && (forall i :: 0 <= i < |st.progress| ==> st.progress[i].loaded <= st.count)
  }

  lemma TallyProgress(st: Ingest, est: Estimate, t: Node)
    requires ProgressInvariant(st, est)
    ensures ProgressInvariant(Tally(st, est, t), est)
  {
    var r := Tally(st, est, t);
    if |r.progress| > |st.progress| {
      var ps := r.progress;
      var n := |st.progress|;
      assert ps == st.progress + [Progress(r.count, r.lastPct)];
      forall i | 1 <= i < |ps|
        ensures ps[i - 1].loaded < ps[i].loaded && ps[i - 1].pct != ps[i].pct
      {
        if i < n {
          assert ps[i - 1] == st.progress[i - 1] && ps[i] == st.progress[i];
        } else {
          assert ps[i - 1] == st.progress[n - 1];
        }
      }
    }
  }

  lemma StepProgress(st: Ingest, est: Estimate, line: string)
    requires ProgressInvariant(st, est)
    ensures ProgressInvariant(Step(st, est, line), est)
  {
    match CleanLine(line)
    case None =>
    case Some(clean) =>
      TallyProgress(st, est, if |clean| > 0 then Insert(st.trie, clean) else st.trie);
  }

  lemma {:induction false} StepAllProgress(st: Ingest, est: Estimate, lines: seq<string>)
    requires ProgressInvariant(st, est)
    ensures ProgressInvariant(StepAll(st, est, lines), est)
    decreases |lines|
  {
    if |lines| > 0 {
      StepAllProgress(st, est, AllButLast(lines));
      StepProgress(StepAll(st, est, AllButLast(lines)), est, Last(lines));
    }
  }

  /** Every load posts faithful progress messages, and each is for a count no
      larger than the final one. */
  lemma LoadProgress(t: Node, est: Estimate, chunks: seq<string>)
    ensures var r := Load(t, est, chunks);
            && ProgressFaithful(r.progress, est)
            && forall i :: 0 <= i < |r.progress| ==> r.progress[i].loaded <= r.count
  {
    var text := Concat(chunks);
    LoadIsWhole(t, est, chunks);
    StepAllProgress(Begin(t), est, Complete(text));
  }

  /** With a positive estimate the progress percentages run strictly upward
      from 1 to at most 99, and so do their counts. */
  ghost predicate ProgressIncreasing(ps: seq<Progress>)
  {
    && (forall i :: 0 <= i < |ps| ==> 1 <= ps[i].pct <= 99)
    && (forall i, j :: 0 <= i < j < |ps| ==> ps[i].pct < ps[j].pct && ps[i].loaded < ps[j].loaded)
  }

  lemma {:induction false} FaithfulIsIncreasing(ps: seq<Progress>, est: Estimate)
    requires est > 0 && ProgressFaithful(ps, est)
    ensures ProgressIncreasing(ps)
    decreases |ps|
  {
    if |ps| > 1 {
      var init := AllButLast(ps);
      var n := |ps| - 1;
      assert ProgressFaithful(init, est);
      FaithfulIsIncreasing(init, est);
      PercentMonotonic(ps[n - 1].loaded, ps[n].loaded, est);
      assert ps[n - 1].pct < ps[n].pct;
      forall i, j | 0 <= i < j < |ps|
        ensures ps[i].pct < ps[j].pct && ps[i].loaded < ps[j].loaded
      {
        if j < n {
          assert init[i] == ps[i] && init[j] == ps[j];
        } else if i < n - 1 {
          assert init[i] == ps[i] && init[n - 1] == ps[n - 1];
        }
      }
    }
  }

  lemma LoadProgressIncreasing(t: Node, est: Estimate, chunks: seq<string>)
    requires est > 0
    ensures ProgressIncreasing(Load(t, est, chunks).progress)
  {
    LoadProgress(t, est, chunks);
    FaithfulIsIncreasing(Load(t, est, chunks).progress, est);
  }
}

=== FILE: normalize.dfy ===
/** Token normalisation of dictWorker.js: `trim`, `toLowerCase` and the
    `replace(/[^a-z]/g, '')` filter, applied to loaded lines and to query terms. */
module Normalize {
  import opened Alphabet
  import opened Wrappers

  /** The code points `String.prototype.trim` removes: ECMAScript WhiteSpace
      (tab, VT, FF, ZWNBSP and the Unicode Zs category) and LineTerminator. */
  predicate IsSpace(c: char)
  {
    var n := c as int;
    || 0x09 <= n <= 0x0D || n == 0x20 || n == 0xA0 || n == 0x1680
    || 0x2000 <= n <= 0x200A || n == 0x2028 || n == 0x2029 || n == 0x202F
    || n == 0x205F || n == 0x3000 || n == 0xFEFF
  }

  predicate AllSpace(s: string)
  {
    forall i :: 0 <= i < |s| ==> IsSpace(s[i])
  }

  /** The first index at or after `i` that holds no whitespace, or `|s|`. */
  function SkipSpaces(s: string, i: nat): (k: nat)
    requires i <= |s|
    ensures i <= k <= |s|
    ensures forall j :: i <= j < k ==> IsSpace(s[j])
    ensures k < |s| ==> !IsSpace(s[k])
    decreases |s| - i
  {
    if i < |s| && IsSpace(s[i]) then SkipSpaces(s, i + 1) else i
  }

  /** Walking back from `j`, no lower than `lo`: the index just past the last
      character that is not whitespace. */
  function SkipSpacesBack(s: string, lo: nat, j: nat): (k: nat)
    requires lo <= j <= |s|
    ensures lo <= k <= j
    ensures forall i :: k <= i < j ==> IsSpace(s[i])
    ensures k > lo ==> !IsSpace(s[k - 1])
    decreases j
  {
    if j > lo && IsSpace(s[j - 1]) then SkipSpacesBack(s, lo, j - 1) else j
  }

  /** Where the text trim keeps starts. */
  function TrimFrom(s: string): nat
    ensures TrimFrom(s) <= |s|
  {
    SkipSpaces(s, 0)
  }

  /** Where the text trim keeps ends. */
  function TrimTo(s: string): nat
    ensures TrimFrom(s) <= TrimTo(s) <= |s|
  {
    SkipSpacesBack(s, TrimFrom(s), |s|)
  }

  /** `String.prototype.trim`: leading and trailing whitespace removed. What
      is kept is no longer than the line and neither starts nor ends with whitespace. */
  function Trim(s: string): (r: string)
    ensures |r| <= |s|
    ensures |r| > 0 ==> !IsSpace(r[0]) && !IsSpace(r[|r| - 1])
  {
    s[TrimFrom(s)..TrimTo(s)]
  }

  /** The whitespace trim removes in front. */
  function Leading(s: string): string
  {
    s[..TrimFrom(s)]
  }

  /** The whitespace trim removes behind. */
  function Trailing(s: string): string
  {
    s[TrimTo(s)..]
  }

  /** Trim cuts a line into what it removes in front, what it keeps, and what it removes behind. */
  lemma TrimSplits(s: string)
    ensures s == Leading(s) + Trim(s) + Trailing(s)
  {
    assert s == s[..TrimFrom(s)] + s[TrimFrom(s)..TrimTo(s)] + s[TrimTo(s)..];
  }

  /** What trim removes is whitespace, and what it keeps starts and ends with a non-space. */
  lemma TrimSpec(s: string)
    ensures AllSpace(Leading(s)) && AllSpace(Trailing(s))
    ensures |Trim(s)| > 0 ==> !IsSpace(Trim(s)[0]) && !IsSpace(Trim(s)[|Trim(s)| - 1])
  {
    var a, b := TrimFrom(s), TrimTo(s);
    assert forall i :: 0 <= i < a ==> Leading(s)[i] == s[i];
    assert forall i :: 0 <= i < |s| - b ==> Trailing(s)[i] == s[b + i];
  }

  lemma AllSpaceAppend(a: string, b: string)
    requires AllSpace(a) && AllSpace(b)
    ensures AllSpace(a + b)
  {
    forall i | 0 <= i < |a + b|
      ensures IsSpace((a + b)[i])
    {
      if i < |a| { assert (a + b)[i] == a[i]; } else { assert (a + b)[i] == b[i - |a|]; }
    }
  }

  /** Trim leaves nothing exactly of an all-space line. */
  lemma TrimEmpty(s: string)
    ensures |Trim(s)| == 0 <==> AllSpace(s)
  {
    var a, b := TrimFrom(s), TrimTo(s);
    if a == b {
      forall i | 0 <= i < |s|
        ensures IsSpace(s[i])
      {
        if i >= b {
          assert IsSpace(s[i]);
        }
      }
    } else {
      assert !IsSpace(s[a]);
    }
  }

  /** The lower-case form of one code point, as far as it can matter to the
      `[a-z]` filter: ASCII `A`-`Z` become `a`-`z`; KELVIN SIGN becomes `k` and
      LATIN CAPITAL LETTER I WITH DOT ABOVE becomes `i` plus a combining dot,
      as in JavaScript; every other code point is kept unchanged. */
  function LowerChar(c: char): (r: string)
    ensures |r| >= 1
    ensures 'A' <= c <= 'Z' ==> r == [(c as int + 32) as char] && IsLetter(r[0])
    ensures IsLetter(c) ==> r == [c]
  {
    if 'A' <= c <= 'Z' then [(c as int - 'A' as int + 'a' as int) as char]
    else if c == '\U{212A}' then "k"
    else if c == '\U{0130}' then "i\U{0307}"
    else [c]
  }

  /** `String.prototype.toLowerCase`, one code point at a time. */
  function Lower(s: string): (r: string)
    ensures |r| >= |s|
    decreases |s|
  {
    if |s| == 0 then "" else LowerChar(s[0]) + Lower(s[1..])
  }

  lemma {:induction false} LowerAppend(a: string, b: string)
    ensures Lower(a + b) == Lower(a) + Lower(b)
    decreases |a|
  {
    if |a| == 0 {
      assert a + b == b;
    } else {
      assert (a + b)[0] == a[0] && (a + b)[1..] == a[1..] + b;
      LowerAppend(a[1..], b);
      calc {
        Lower(a + b);
        LowerChar(a[0]) + Lower(a[1..] + b);
        LowerChar(a[0]) + (Lower(a[1..]) + Lower(b));
        (LowerChar(a[0]) + Lower(a[1..])) + Lower(b);
      }
    }
  }

  /** Lower-casing leaves a word over `a`-`z` alone. */
  lemma {:induction false} LowerLetters(s: string)
    requires IsLetters(s)
    ensures Lower(s) == s
    decreases |s|
  {
    if |s| > 0 {
      LowerLetters(s[1..]);
    }
  }

  /** The ASCII case fold: `A`-`Z` to `a`-`z`, everything else kept. */
  function AsciiFold(c: char): char
  {
    if 'A' <= c <= 'Z' then (c as int + 32) as char else c
  }

  /** On ASCII text `toLowerCase` changes no length and folds each character
      in place: `A`-`Z` become `a`-`z`, and everything else is kept. */
  lemma {:induction false} LowerAscii(s: string)
    requires forall i :: 0 <= i < |s| ==> s[i] as int < 128
    ensures |Lower(s)| == |s|
    ensures forall i :: 0 <= i < |s| ==> Lower(s)[i] == AsciiFold(s[i])
    decreases |s|
  {
    if |s| > 0 {
      LowerAscii(s[1..]);
      assert Lower(s) == LowerChar(s[0]) + Lower(s[1..]);
      forall i | 1 <= i < |s|
        ensures Lower(s)[i] == AsciiFold(s[i])
      {
        assert Lower(s)[i] == Lower(s[1..])[i - 1];
        assert s[1..][i - 1] == s[i];
      }
    }
  }

  /** `replace(/[^a-z]/g, '')`: keep the letters `a`-`z`, in order. */
  function Strip(s: string): (r: string)
    ensures IsLetters(r)
    ensures |r| <= |s|
    ensures forall c :: IsLetter(c) ==> multiset(r)[c] == multiset(s)[c]
    decreases |s|
  {
    if |s| == 0 then ""
    else
      var rest := Strip(s[1..]);
      assert s == [s[0]] + s[1..];
      if IsLetter(s[0]) then [s[0]] + rest else rest
  }

  lemma {:induction false} StripAppend(a: string, b: string)
    ensures Strip(a + b) == Strip(a) + Strip(b)
    decreases |a|
  {
    if |a| == 0 {
      assert a + b == b;
    } else {
      assert (a + b)[0] == a[0] && (a + b)[1..] == a[1..] + b;
      StripAppend(a[1..], b);
      var h := if IsLetter(a[0]) then [a[0]] else "";
      calc {
        Strip(a + b);
        h + Strip(a[1..] + b);
        h + (Strip(a[1..]) + Strip(b));
        (h + Strip(a[1..])) + Strip(b);
      }
    }
  }

  /** The filter keeps a word over `a`-`z` whole. */
  lemma {:induction false} StripLetters(s: string)
    requires IsLetters(s)
    ensures Strip(s) == s
    decreases |s|
  {
    if |s| > 0 {
      StripLetters(s[1..]);
    }
  }

  /** One whitespace character lower-cases to itself and the filter drops it. */
  lemma StripLowerSpace(c: char)
    requires IsSpace(c)
    ensures Strip(LowerChar(c)) == ""
  {
    assert LowerChar(c) == [c];
    assert [c][1..] == "";
  }

  /** Whitespace lower-cases to itself and then disappears under the filter. */
  lemma {:induction false} StripLowerSpaces(s: string)
    requires AllSpace(s)
    ensures Strip(Lower(s)) == ""
    decreases |s|
  {
    if |s| > 0 {
      StripLowerSpaces(s[1..]);
      StripLowerSpace(s[0]);
      StripAppend(LowerChar(s[0]), Lower(s[1..]));
    }
  }

  /** The query path: `toLowerCase()` then the `[a-z]` filter. */
  function NormalizeQuery(s: string): (r: string)
    ensures IsLetters(r)
  {
    Strip(Lower(s))
  }

  /** Query normalisation is case-insensitive: a term spelled in ASCII letters
      of either case keeps every letter, folded to lower case. */
  lemma NormalizeQueryFolds(s: string)
    requires forall i :: 0 <= i < |s| ==> IsLetter(s[i]) || 'A' <= s[i] <= 'Z'
    ensures |NormalizeQuery(s)| == |s|
    ensures forall i :: 0 <= i < |s| ==> NormalizeQuery(s)[i] == AsciiFold(s[i])
  {
    LowerAscii(s);
    assert IsLetters(Lower(s));
    StripLetters(Lower(s));
  }

  /** A prefix of a word over `a`-`z`, asked as a query, is itself. */
  lemma LettersPrefixQuery(w: string, p: string)
    requires IsLetters(w) && p <= w
    ensures NormalizeQuery(p) == p
  {
    assert IsLetters(p) by {
      forall i | 0 <= i < |p|
        ensures IsLetter(p[i])
      {
        assert p[i] == w[i];
      }
    }
    LowerLetters(p);
    StripLetters(p);
  }

  /** The line path: trim and lower-case; a line that is then empty is skipped
      (`None`), any other is kept as its filtered form, which may be empty. */
  function CleanLine(line: string): (r: Option<string>)
    ensures r.Some? ==> IsLetters(r.value)
  {
    var w := Lower(Trim(line));
    if |w| == 0 then None else Some(Strip(w))
  }

  /** Query normalisation is idempotent. */
  lemma NormalizeQueryIdempotent(s: string)
    ensures NormalizeQuery(NormalizeQuery(s)) == NormalizeQuery(s)
  {
    var q := NormalizeQuery(s);
    LowerLetters(q);
    StripLetters(q);
  }

  /** Lower-casing a line is lower-casing what trim removes and what it keeps. */
  lemma LowerAroundTrim(line: string)
    ensures Lower(line) == Lower(Leading(line)) + Lower(Trim(line)) + Lower(Trailing(line))
  {
    var a, m, b := Leading(line), Trim(line), Trailing(line);
    TrimSplits(line);
    LowerAppend(a + m, b);
    LowerAppend(a, m);
  }

  /** The filter drops lower-cased whitespace on either side of a text. */
  lemma StripAroundSpaces(a: string, m: string, b: string)
    requires AllSpace(a) && AllSpace(b)
    ensures Strip(Lower(a) + m + Lower(b)) == Strip(m)
  {
    StripAppend(Lower(a) + m, Lower(b));
    StripAppend(Lower(a), m);
    StripLowerSpaces(a);
    StripLowerSpaces(b);
    assert "" + Strip(m) + "" == Strip(m);
  }

  /** A line is skipped exactly when it is blank, and a kept line normalises
      to what a query on the same raw text normalises to. */
  lemma CleanLineIsQuery(line: string)
    ensures CleanLine(line).None? <==> AllSpace(line)
    ensures CleanLine(line).Some? ==> CleanLine(line).value == NormalizeQuery(line)
  {
    TrimEmpty(line);
    assert |Lower(Trim(line))| == 0 <==> |Trim(line)| == 0;
    if !AllSpace(line) {
      LowerAroundTrim(line);
      TrimSpec(line);
      StripAroundSpaces(Leading(line), Lower(Trim(line)), Trailing(line));
    }
  }

  /** Trim leaves a word over `a`-`z` alone: no letter is whitespace. */
  lemma TrimLetters(s: string)
    requires IsLetters(s)
    ensures Trim(s) == s
  {
    if |s| > 0 {
      assert !IsSpace(s[0]) && !IsSpace(s[|s| - 1]);
    }
    assert s[0..|s|] == s;
  }

  /** Line normalisation is idempotent: a kept token, cleaned as a line again,
      comes back unchanged (an empty token is then a blank line). */
  lemma CleanLineIdempotent(line: string)
    requires CleanLine(line).Some?
    ensures var w := CleanLine(line).value;
            CleanLine(w) == if |w| > 0 then Some(w) else None
  {
    var w := CleanLine(line).value;
    TrimLetters(w);
    LowerLetters(w);
    StripLetters(w);
  }
}

=== FILE: sample_tokens.dfy ===
/** The tokens of the sample word list, worked through trim, lower-casing and
    the `[a-z]` filter one step at a time. Each lemma takes its text as a
    parameter equal to a literal rather than as the literal itself: the
    verifier unfolds recursive functions on literal arguments all the way,
    which makes these small facts far more expensive to prove. */
module SampleTokens {
  import opened Alphabet
  import opened Normalize
  import opened Wrappers

  /** A term of ASCII letters whose fold spells `w` normalises to `w`. */
  lemma FoldsTo(s: string, w: string)
    requires |w| == |s|
    requires forall i :: 0 <= i < |s| ==> (IsLetter(s[i]) || 'A' <= s[i] <= 'Z') && AsciiFold(s[i]) == w[i]
    ensures NormalizeQuery(s) == w
  {
    var q := NormalizeQuery(s);
    assert |q| == |s| && forall i :: 0 <= i < |s| ==> q[i] == AsciiFold(s[i]) by {
      NormalizeQueryFolds(s);
    }
  }

  /** A line that is not blank cleans to its query normalisation. The index
      `k` names one non-space character, which is all the caller must show. */
  lemma ExampleKept(line: string, k: nat)
    requires k < |line| && !IsSpace(line[k])
    ensures CleanLine(line) == Some(NormalizeQuery(line))
  {
    CleanLineIsQuery(line);
  }

  /** The query normalisations of the sample's one-word lines, and of the query `Ban`. */
  lemma ExampleQuery(line: string, w: string)
    requires || (line == "Apple" && w == "apple") || (line == "cherry" && w == "cherry")
             || (line == "Ban" && w == "ban")
    ensures NormalizeQuery(line) == w
  {
    FoldsTo(line, w);
  }

  /** `Apple` folds to `apple`: lower-casing keeps the capital for the filter. */
  lemma ExampleCleanApple(line: string)
    requires line == "Apple"
    ensures CleanLine(line) == Some("apple")
  {
    ExampleKept(line, 0);
    ExampleQuery(line, "apple");
  }

  /** Normalising a query splits at the boundaries of a cut of its text. */
  lemma QueryAppend(a: string, m: string, b: string)
    ensures NormalizeQuery(a + m + b) == Strip(Lower(a)) + Strip(Lower(m)) + Strip(Lower(b))
  {
    LowerAppend(a + m, b);
    LowerAppend(a, m);
    StripAppend(Lower(a) + Lower(m), Lower(b));
    StripAppend(Lower(a), Lower(m));
  }

  lemma ExampleSpaces(a: string)
    requires a == "  "
    ensures Strip(Lower(a)) == ""
  {
    assert AllSpace(a);
    StripLowerSpaces(a);
  }

  /** The filter drops the `!` of `!!`. */
  lemma ExampleBangs(b: string)
    requires b == "!!"
    ensures Strip(Lower(b)) == ""
  {
    assert Lower(b) == b by {
      LowerAscii(b);
    }
  }

  lemma ExampleCapitals(m: string)
    requires m == "BANANA"
    ensures Strip(Lower(m)) == "banana"
  {
    FoldsTo(m, "banana");
  }

  /** Text the filter drops entirely, on either side of a term, does not change
      the term's normalisation. */
  lemma QueryBetween(a: string, m: string, b: string, w: string)
    requires Strip(Lower(a)) == "" && Strip(Lower(b)) == "" && Strip(Lower(m)) == w
    ensures NormalizeQuery(a + m + b) == w
  {
    QueryAppend(a, m, b);
    assert "" + w + "" == w;
  }

  /** The query normalisation of `  BANANA!!` is `banana`: the spaces and the
      `!`s are filtered out and the capitals are folded. */
  lemma ExampleQueryBanana(line: string)
    requires line == "  BANANA!!"
    ensures NormalizeQuery(line) == "banana"
  {
    // The three parts are chosen with `:|` rather than assigned, so that the
    // verifier treats them as opaque values instead of unfolding `Lower` and
    // `Strip` on literal text.
    var a, m, b :| a == "  " && m == "BANANA" && b == "!!";
    assert line == a + m + b;
    ExampleSpaces(a);
    ExampleBangs(b);
    ExampleCapitals(m);
    QueryBetween(a, m, b, "banana");
  }

  /** `  BANANA!!` cleans to `banana`. */
  lemma ExampleCleanBanana(line: string)
    requires line == "  BANANA!!"
    ensures CleanLine(line) == Some("banana")
  {
    ExampleKept(line, 2);
    ExampleQueryBanana(line);
  }

  /** `cherry` is already a word and cleans to itself. */
  lemma ExampleCleanCherry(line: string)
    requires line == "cherry"
    ensures CleanLine(line) == Some("cherry")
  {
    ExampleKept(line, 0);
    ExampleQuery(line, "cherry");
  }

  /** The empty line is blank and is skipped. */
  lemma ExampleBlankLine(line: string)
    requires line == ""
    ensures CleanLine(line) == None
  {
    CleanLineIsQuery(line);
  }
}

=== FILE: scenario.dfy ===
module Scenario {
  import opened Trie
  import opened Lines
  import opened Loader
  import opened Normalize
  import opened Wrappers
  import opened Alphabet
  import opened SampleTokens
  import opened Worker

  lemma ExamplePieces()
    ensures Pieces(Concat(["Apple\n", "  BANANA!!\n", "\n", "cherry"])) == ["Apple", "  BANANA!!", "", "cherry"]
  {
    var ps := ["Apple", "  BANANA!!", "", "cherry"];
    assert Concat(["Apple\n", "  BANANA!!\n", "\n", "cherry"]) == "Apple\n  BANANA!!\n\ncherry";
    assert Join(ps) == "Apple\n  BANANA!!\n\ncherry" by {
      assert Join(ps[3..]) == "cherry";
      assert Join(ps[2..]) == "\ncherry";
      assert Join(ps[1..]) == "  BANANA!!\n\ncherry";
    }
    assert AllNoNewline(ps);
    PiecesJoin(ps);
  }

  lemma ExampleDropCRs()
    ensures DropCRs(["Apple", "  BANANA!!", ""]) == ["Apple", "  BANANA!!", ""]
  {
    var full := ["Apple", "  BANANA!!", ""];
    assert DropCRs(full[3..]) == [];
    assert DropCRs(full[2..]) == [""];
    assert DropCRs(full[1..]) == ["  BANANA!!"] + DropCRs(full[2..]);
  }

  lemma ExampleLines()
    ensures SplitLines(Concat(["Apple\n", "  BANANA!!\n", "\n", "cherry"])) == ["Apple", "  BANANA!!", "", "cherry"]
  {
    ExamplePieces();
    ExampleDropCRs();
    var ps := ["Apple", "  BANANA!!", "", "cherry"];
    assert AllButLast(ps) == ["Apple", "  BANANA!!", ""];
  }

  /** A four-line word list with one blank line, delivered in four chunks. */
  function ExampleChunks(): seq<string>
  {
    ["Apple\n", "  BANANA!!\n", "\n", "cherry"]
  }

  lemma ExampleBlankness()
    ensures !AllSpace("Apple") && !AllSpace("  BANANA!!") && AllSpace("") && !AllSpace("cherry")
  {
    assert !IsSpace("Apple"[0]);
    assert !IsSpace("  BANANA!!"[2]);
    assert !IsSpace("cherry"[0]);
  }

  lemma ExampleNonBlank(lines: seq<string>)
    requires lines == ["Apple", "  BANANA!!", "", "cherry"]
    ensures CountNonBlank(lines) == 3
  {
    ExampleBlankness();
    var l3 := AllButLast(lines);
    var l2 := AllButLast(l3);
    var l1 := AllButLast(l2);
    assert l1 == ["Apple"] && AllButLast(l1) == [];
    assert CountNonBlank(l1) == 1;
    assert l2 == ["Apple", "  BANANA!!"] && CountNonBlank(l2) == 2;
    assert l3 == ["Apple", "  BANANA!!", ""] && CountNonBlank(l3) == 2;
  }

  lemma ExampleCount(chunks: seq<string>)
    requires chunks == ExampleChunks()
    ensures Load(Empty, DefaultEstimate, chunks).count == 3
  {
    ExampleLines();
    ExampleNonBlank(SplitLines(Concat(chunks)));
  }

  lemma ExampleCherry(chunks: seq<string>)
    requires chunks == ExampleChunks()
    ensures Contains(Load(Empty, DefaultEstimate, chunks).trie, "cherry")
  {
    ExampleLines();
    ExampleCleanCherry("cherry");
    YieldsMember(SplitLines(Concat(chunks)), "cherry");
    LoadContains(Empty, DefaultEstimate, chunks, "cherry");
  }

  lemma ExampleFolded(chunks: seq<string>)
    requires chunks == ExampleChunks()
    ensures var t := Load(Empty, DefaultEstimate, chunks).trie;
            Contains(t, "apple") && Contains(t, "banana")
  {
    ExampleLines();
    var lines := SplitLines(Concat(chunks));
    ExampleCleanApple("Apple");
    ExampleCleanBanana("  BANANA!!");
    YieldsMember(lines, "Apple");
    YieldsMember(lines, "  BANANA!!");
    LoadContains(Empty, DefaultEstimate, chunks, "apple");
    LoadContains(Empty, DefaultEstimate, chunks, "banana");
  }

  /** No line of the sample cleans to `ban`. */
  lemma ExampleNoBan(lines: seq<string>)
    requires lines == ["Apple", "  BANANA!!", "", "cherry"]
    ensures !Yields(lines, "ban")
  {
    ExampleCleanApple(lines[0]);
    ExampleCleanBanana(lines[1]);
    ExampleBlankLine(lines[2]);
    ExampleCleanCherry(lines[3]);
    forall i | 0 <= i < |lines|
      ensures CleanLine(lines[i]) != Some("ban")
    {
      assert i == 0 || i == 1 || i == 2 || i == 3;
    }
    NoLineYields(lines, "ban");
  }

  /** After loading the sample, `ban` is a prefix of a stored word but not a
      stored word itself. */
  lemma ExampleBan(chunks: seq<string>)
    requires chunks == ExampleChunks()
    ensures var t := Load(Empty, DefaultEstimate, chunks).trie;
            IsPrefix(t, "ban") && !Contains(t, "ban")
  {
    var t := Load(Empty, DefaultEstimate, chunks).trie;
    ExampleFolded(chunks);
    ContainsIsPrefix(t, "banana");
    PrefixClosed(t, "banana", "ban");
    ExampleLines();
    ExampleNoBan(SplitLines(Concat(chunks)));
    EmptyHoldsNothing("ban");
    LoadContains(Empty, DefaultEstimate, chunks, "ban");
  }

  /** Through the worker: loading the sample stores `banana` but not `ban`. */
  lemma ExampleWorkerLoad(url: Option<string>, fetch: string -> FetchResponse)
    requires fetch(SourceUrl(url)) == FetchResponse(200, ExampleChunks())
    ensures var t := Handle(Empty, LoadUrl(url, None), fetch).trie;
            IsPrefix(t, "ban") && !Contains(t, "ban")
  {
    var chunks := fetch(SourceUrl(url)).chunks;
    assert Handle(Empty, LoadUrl(url, None), fetch).trie == Load(Empty, DefaultEstimate, chunks).trie;
    ExampleBan(chunks);
  }

  /** Through the worker: after the sample is loaded, a `contains` query for
      `Ban` answers false, because no line cleans to `ban`, and an `isPrefix`
      query for it answers true, because `ban` begins `banana`. */
  lemma ExampleBanQueries(url: Option<string>, fetch: string -> FetchResponse, q: string, id: string)
    requires fetch(SourceUrl(url)) == FetchResponse(200, ExampleChunks())
    requires q == "Ban"
    ensures var after := Handle(Empty, LoadUrl(url, None), fetch).trie;
            && Handle(after, ContainsQuery(id, Some(q)), fetch).replies == [ContainsReply(id, false)]
            && Handle(after, IsPrefixQuery(id, Some(q)), fetch).replies == [IsPrefixReply(id, true)]
  {
    ExampleWorkerLoad(url, fetch);
    ExampleQuery(q, "ban");
  }
}

=== FILE: trie.dfy ===
/** The prefix tree of dictWorker.js (`TrieNode` and `Trie`), as an immutable value.
    `insert` returns the grown tree instead of mutating the shared root. */
module Trie {
  import opened Alphabet
  import opened Wrappers

  /** A node: one child per edge character, and a flag marking that the path
      from the root to this node spells a stored word. */
  datatype Node = Node(children: map<char, Node>, isWord: bool)

  /** A fresh `TrieNode`: no children, not a word. */
  const Empty: Node := Node(map[], false)

  /** The child under `c`, or a fresh node when there is none (the `new TrieNode()` of insert). */
  function Child(n: Node, c: char): Node
  {
    if c in n.children then n.children[c] else Empty
  }

  /** `Trie.insert`: walk `w`, creating missing children, and mark the last node as a word. */
  function Insert(n: Node, w: string): (r: Node)
    ensures Contains(r, w)
    ensures IsPrefix(r, w)
    decreases |w|
  {
    if |w| == 0 then n.(isWord := true)
    else n.(children := n.children[w[0] := Insert(Child(n, w[0]), w[1..])])
  }

  /** The loop shared by `contains` and `isPrefix`: step from the root through
      the characters of `p` one after another; `None` once a child is missing. */
  function Walk(n: Node, p: string): Option<Node>
    decreases |p|
  {
    if |p| == 0 then Some(n)
    else
      match Walk(n, p[..|p| - 1])
      case None => None
      case Some(m) => if p[|p| - 1] in m.children then Some(m.children[p[|p| - 1]]) else None
  }

  /** Walking `c` then `p` is taking the child under `c` and walking `p` from there. */
  lemma {:induction false} WalkCons(n: Node, c: char, p: string)
    ensures Walk(n, [c] + p) == if c in n.children then Walk(n.children[c], p) else None
    decreases |p|
  {
    var s := [c] + p;
    if |p| > 0 {
      assert s[..|s| - 1] == [c] + p[..|p| - 1];
      assert s[|s| - 1] == p[|p| - 1];
      WalkCons(n, c, p[..|p| - 1]);
    }
  }

  /** `Trie.contains`: the path spelled by `w` exists and ends on a word node,
      which is what the loop of the source finds. */
  predicate Contains(n: Node, w: string)
    ensures Contains(n, w) <==> Walk(n, w).Some? && Walk(n, w).value.isWord
    decreases |w|
  {
    if |w| == 0 then n.isWord
    else
      WalkCons(n, w[0], w[1..]);
      assert w == [w[0]] + w[1..];
      w[0] in n.children && Contains(n.children[w[0]], w[1..])
  }

  /** `Trie.isPrefix`: the path spelled by `p` exists, whatever the flag at its end,
      which is when the loop of the source never falls off the tree. */
  predicate IsPrefix(n: Node, p: string)
    ensures IsPrefix(n, p) <==> Walk(n, p).Some?
    decreases |p|
  {
    if |p| == 0 then true
    else
      WalkCons(n, p[0], p[1..]);
      assert p == [p[0]] + p[1..];
      p[0] in n.children && IsPrefix(n.children[p[0]], p[1..])
  }

  /** A stored word is also a prefix, and the empty string is a prefix of every tree. */
  lemma {:induction false} ContainsIsPrefix(n: Node, w: string)
    ensures Contains(n, w) ==> IsPrefix(n, w)
    ensures IsPrefix(n, "")
    decreases |w|
  {
    if |w| > 0 && w[0] in n.children {
      ContainsIsPrefix(n.children[w[0]], w[1..]);
    }
  }

  /** The paths of a tree are closed under taking prefixes. */
  lemma {:induction false} PrefixClosed(n: Node, w: string, p: string)
    requires IsPrefix(n, w) && p <= w
    ensures IsPrefix(n, p)
    decreases |p|
  {
    if |p| > 0 {
      PrefixClosed(n.children[w[0]], w[1..], p[1..]);
    }
  }

  /** A fresh tree stores nothing and has no path but the empty one. */
  lemma EmptyHoldsNothing(w: string)
    ensures !Contains(Empty, w)
    ensures IsPrefix(Empty, w) <==> w == ""
  {
  }

  /** Inserting `w` adds exactly `w` to the stored words: every other word keeps its answer. */
  lemma {:induction false} InsertContains(n: Node, w: string, v: string)
    ensures Contains(Insert(n, w), v) <==> v == w || Contains(n, v)
    decreases |w|
  {
    if |w| > 0 && |v| > 0 && v[0] == w[0] {
      InsertContains(Child(n, w[0]), w[1..], v[1..]);
      EmptyHoldsNothing(v[1..]);
      assert v == w <==> v[1..] == w[1..] by {
        if v[1..] == w[1..] {
          assert v == [v[0]] + v[1..] && w == [w[0]] + w[1..];
        }
      }
    }
  }

  /** Inserting `w` adds exactly the prefixes of `w` to the paths of the tree. */
  lemma {:induction false} InsertIsPrefix(n: Node, w: string, p: string)
    ensures IsPrefix(Insert(n, w), p) <==> p <= w || IsPrefix(n, p)
    decreases |w|
  {
    if |w| > 0 && |p| > 0 && p[0] == w[0] {
      InsertIsPrefix(Child(n, w[0]), w[1..], p[1..]);
      EmptyHoldsNothing(p[1..]);
      assert p <= w <==> p[1..] <= w[1..] by {
        if p[1..] <= w[1..] {
          assert p == [p[0]] + p[1..] && w == [w[0]] + w[1..];
        }
      }
    }
  }

  /** Inserting the same word twice builds the same tree as inserting it once:
      the second walk finds every node already there and creates none. */
  lemma {:induction false} InsertIdempotent(n: Node, w: string)
    ensures Insert(Insert(n, w), w) == Insert(n, w)
    decreases |w|
  {
    if |w| > 0 {
      var once := Insert(n, w);
      InsertIdempotent(Child(n, w[0]), w[1..]);
      assert Child(once, w[0]) == Insert(Child(n, w[0]), w[1..]);
      assert once.children[w[0] := Insert(Child(once, w[0]), w[1..])] == once.children;
    }
  }

  /** The shape of every tree the worker builds from an empty root:
      the root is not a word (the empty token is never inserted), every edge
      is a letter `a`-`z`, and every non-root node lies on the path of a stored word. */
  ghost predicate Valid(n: Node)
  {
    && !Contains(n, "")
    && (forall p :: IsPrefix(n, p) ==> IsLetters(p))
    && (forall p :: IsPrefix(n, p) && |p| > 0 ==> exists s :: Contains(n, p + s))
  }

  lemma EmptyValid()
    ensures Valid(Empty)
  {
    forall p | IsPrefix(Empty, p)
      ensures p == ""
    {
      EmptyHoldsNothing(p);
    }
  }

  /** Inserting a non-empty word over `a`-`z` keeps a tree valid. */
  lemma InsertValid(n: Node, w: string)
    requires Valid(n)
    requires |w| > 0 && IsLetters(w)
    ensures Valid(Insert(n, w))
  {
    var r := Insert(n, w);
    InsertContains(n, w, "");
    forall p | IsPrefix(r, p)
      ensures IsLetters(p)
    {
      InsertIsPrefix(n, w, p);
    }
    forall p | IsPrefix(r, p) && |p| > 0
      ensures exists s :: Contains(r, p + s)
    {
      InsertIsPrefix(n, w, p);
      if p <= w {
        var s := w[|p|..];
        assert p + s == w;
        InsertContains(n, w, p + s);
      } else {
        var s :| Contains(n, p + s);
        InsertContains(n, w, p + s);
      }
    }
  }
}

=== FILE: worker.dfy ===
/** The message handler of dictWorker.js: a `loadUrl` request streams the word
    list into the worker's trie, and `contains`/`isPrefix` requests are answered
    from the trie with the request's `id` echoed. Messages are handled one at a
    time, so the handler is a transition from a trie and a request to a new trie
    and the messages posted back. */
module Worker {
  import opened Wrappers
  import opened Alphabet
  import opened Trie
  import opened Normalize
  import opened Lines
  import opened Loader

  /** What the transport answers for a URL: the HTTP status and, when the body
      is read, its decoded text in the chunks the reader delivered. */
  datatype FetchResponse = FetchResponse(status: nat, chunks: seq<string>)

  /** `res.ok`: a status in the range 200-299. */
  predicate Ok(res: FetchResponse)
  {
    200 <= res.status <= 299
  }

  /** The `type` of a message the listener does not handle. */
  type OtherKind = k: string | k != "loadUrl" && k != "contains" && k != "isPrefix" witness ""

  /** A message to the worker, by its `type` field. */
  datatype Request =
    | LoadUrl(url: Option<string>, estimated: Option<int>)
    | ContainsQuery(id: string, word: Option<string>)
    | IsPrefixQuery(id: string, pref: Option<string>)
    | Unrecognised(kind: OtherKind)

  /** A message posted back by the worker, by its `type` field. */
  datatype Reply =
    | ProgressReply(loaded: nat, pct: int)
    | LoadedReply(count: nat)
    | ErrorReply(message: string)
    | ContainsReply(id: string, result: bool)
    | IsPrefixReply(id: string, result: bool)

  /** The worker's trie after a message, and the messages it posted. */
  datatype Outcome = Outcome(trie: Node, replies: seq<Reply>)

  const DefaultUrl: string := "./wordlist.txt"

  /** `data.url || './wordlist.txt'`: a missing or empty URL means the default. */
  function SourceUrl(url: Option<string>): (u: string)
    ensures u != ""
    ensures url.Some? && url.value != "" ==> u == url.value
  {
    if url.Some? && url.value != "" then url.value else DefaultUrl
  }

  function DigitChar(d: nat): (c: char)
    requires d < 10
    ensures '0' <= c <= '9'
  {
    ('0' as int + d) as char
  }

  /** A status number as JavaScript prints it into a template string. */
  function Decimal(n: nat): (r: string)
    ensures |r| >= 1
    ensures forall i :: 0 <= i < |r| ==> '0' <= r[i] <= '9'
    ensures r[0] == '0' ==> n == 0
    decreases n
  {
    if n < 10 then [DigitChar(n)] else Decimal(n / 10) + [DigitChar(n % 10)]
  }

  /** The number a string of decimal digits denotes. */
  function DecimalValue(s: string): int
    decreases |s|
  {
    if |s| == 0 then 0 else 10 * DecimalValue(AllButLast(s)) + (Last(s) as int - '0' as int)
  }

  /** Printing a status loses nothing: reading the digits back gives the status. */
  lemma {:induction false} DecimalRoundTrip(n: nat)
    ensures DecimalValue(Decimal(n)) == n
    decreases n
  {
    if n >= 10 {
      DecimalRoundTrip(n / 10);
      var r := Decimal(n);
      assert AllButLast(r) == Decimal(n / 10);
    }
  }

  /** The text of the error posted for a failed fetch. */
  function FetchFailed(status: nat): string
  {
    "Fetch failed " + Decimal(status)
  }

  /** One `progress` message per progress event, in order; none of them is
      the answer to a query. */
  function ProgressReplies(ps: seq<Progress>): (r: seq<Reply>)
    ensures |r| == |ps|
    ensures forall i :: 0 <= i < |ps| ==> r[i] == ProgressReply(ps[i].loaded, ps[i].pct)
    ensures Answered(r) == []
    decreases |ps|
  {
    if |ps| == 0 then []
    else
      var init := ProgressReplies(AllButLast(ps));
      var r := init + [ProgressReply(Last(ps).loaded, Last(ps).pct)];
      assert AllButLast(r) == init;
      r
  }

  /** One message through the `message` listener. */
  function Handle(t: Node, req: Request, fetch: string -> FetchResponse): (r: Outcome)
    ensures !req.LoadUrl? ==> r.trie == t
    ensures req.ContainsQuery? ==> |r.replies| == 1 && r.replies[0].ContainsReply? && r.replies[0].id == req.id
    ensures req.ContainsQuery? ==> r.replies[0].result == Contains(t, NormalizeQuery(req.word.GetOr("")))
    ensures req.IsPrefixQuery? ==> |r.replies| == 1 && r.replies[0].IsPrefixReply? && r.replies[0].id == req.id
    ensures req.IsPrefixQuery? ==> r.replies[0].result == IsPrefix(t, NormalizeQuery(req.pref.GetOr("")))
    ensures req.Unrecognised? ==> r.replies == []
  {
    match req
    case LoadUrl(url, estimated) =>
      var res := fetch(SourceUrl(url));
      if !Ok(res) then
        Outcome(t, [ErrorReply(FetchFailed(res.status))])
      else
        var report := Load(t, EffectiveEstimate(estimated), res.chunks);
        Outcome(report.trie, ProgressReplies(report.progress) + [LoadedReply(report.count)])
    case ContainsQuery(id, word) =>
      Outcome(t, [ContainsReply(id, Contains(t, NormalizeQuery(word.GetOr(""))))])
    case IsPrefixQuery(id, pref) =>
      Outcome(t, [IsPrefixReply(id, IsPrefix(t, NormalizeQuery(pref.GetOr(""))))])
    case Unrecognised(_) =>
      Outcome(t, [])
  }

  /** A fetch with a status outside 200-299 posts exactly one error naming the
      status, posts no progress and no `loaded`, and leaves the trie as it was. */
  lemma FailedLoad(t: Node, url: Option<string>, estimated: Option<int>, fetch: string -> FetchResponse)
    requires !Ok(fetch(SourceUrl(url)))
    ensures var r := Handle(t, LoadUrl(url, estimated), fetch);
            && r.trie == t
            && |r.replies| == 1 && r.replies[0].ErrorReply?
            && |r.replies[0].message| > 13
            && r.replies[0].message[..13] == "Fetch failed "
            && DecimalValue(r.replies[0].message[13..]) == fetch(SourceUrl(url)).status
  {
    DecimalRoundTrip(fetch(SourceUrl(url)).status);
  }

  /** A successful load posts its progress messages and then exactly one
      `loaded` message, whose count is the number of non-blank lines of the
      decoded text, unterminated tail included. With a positive estimate the
      progress percentages climb strictly from 1 to at most 99. */
  lemma SuccessfulLoad(t: Node, url: Option<string>, estimated: Option<int>, fetch: string -> FetchResponse)
    requires Ok(fetch(SourceUrl(url)))
    ensures var r := Handle(t, LoadUrl(url, estimated), fetch);
            var text := Concat(fetch(SourceUrl(url)).chunks);
            && |r.replies| >= 1
            && Last(r.replies) == LoadedReply(CountNonBlank(SplitLines(text)))
            && (forall i :: 0 <= i < |r.replies| - 1 ==> r.replies[i].ProgressReply?)
            && (EffectiveEstimate(estimated) > 0 ==>
                  forall i, j :: 0 <= i < j < |r.replies| - 1 ==> 1 <= r.replies[i].pct < r.replies[j].pct <= 99)
  {
    var res := fetch(SourceUrl(url));
    var est := EffectiveEstimate(estimated);
    var report := Load(t, est, res.chunks);
    assert Handle(t, LoadUrl(url, estimated), fetch).replies
        == ProgressReplies(report.progress) + [LoadedReply(report.count)];
    if est > 0 {
      LoadProgressIncreasing(t, est, res.chunks);
    }
    LoadReplies(report.progress, report.count);
  }

  /** The replies of a successful load: its progress messages, then `loaded`. */
  lemma LoadReplies(ps: seq<Progress>, count: nat)
    ensures var rs := ProgressReplies(ps) + [LoadedReply(count)];
            && Last(rs) == LoadedReply(count)
            && (forall i :: 0 <= i < |rs| - 1 ==> rs[i].ProgressReply?)
            && (ProgressIncreasing(ps) ==>
                  forall i, j :: 0 <= i < j < |rs| - 1 ==> 1 <= rs[i].pct < rs[j].pct <= 99)
  {
    var rs := ProgressReplies(ps) + [LoadedReply(count)];
    assert forall i :: 0 <= i < |ps| ==> rs[i] == ProgressReply(ps[i].loaded, ps[i].pct);
  }

  /** After a successful load, a `contains` query answers true exactly when
      its normalised term was stored before or is the cleaned token of some
      line of the decoded text; any other term answers false. */
  lemma LoadedContainsAnswer(t: Node, url: Option<string>, estimated: Option<int>,
                             fetch: string -> FetchResponse, q: string, id: string)
    requires Ok(fetch(SourceUrl(url)))
    ensures var after := Handle(t, LoadUrl(url, estimated), fetch).trie;
            var w := NormalizeQuery(q);
            Handle(after, ContainsQuery(id, Some(q)), fetch).replies
              == [ContainsReply(id, Contains(t, w) || Yields(SplitLines(Concat(fetch(SourceUrl(url)).chunks)), w))]
  {
    LoadContains(t, EffectiveEstimate(estimated), fetch(SourceUrl(url)).chunks, NormalizeQuery(q));
  }

  /** After a successful load, an `isPrefix` query answers true exactly when
      its normalised term was a prefix before or begins the cleaned token of
      some line of the decoded text; any other term answers false. */
  lemma LoadedIsPrefixAnswer(t: Node, url: Option<string>, estimated: Option<int>,
                             fetch: string -> FetchResponse, q: string, id: string)
    requires Ok(fetch(SourceUrl(url)))
    ensures var after := Handle(t, LoadUrl(url, estimated), fetch).trie;
            var p := NormalizeQuery(q);
            Handle(after, IsPrefixQuery(id, Some(q)), fetch).replies
              == [IsPrefixReply(id, IsPrefix(t, p) || PrefixYields(SplitLines(Concat(fetch(SourceUrl(url)).chunks)), p))]
  {
    LoadIsPrefix(t, EffectiveEstimate(estimated), fetch(SourceUrl(url)).chunks, NormalizeQuery(q));
  }

  /** After a load, a `contains` query on the raw text of any loaded line whose
      cleaned form is non-empty answers true, whatever the line's casing,
      punctuation or surrounding whitespace. */
  lemma LoadedLineIsFound(t: Node, url: Option<string>, estimated: Option<int>,
                          fetch: string -> FetchResponse, line: string, id: string)
    requires Ok(fetch(SourceUrl(url)))
    requires line in SplitLines(Concat(fetch(SourceUrl(url)).chunks))
    requires CleanLine(line).Some? && |CleanLine(line).value| > 0
    ensures var after := Handle(t, LoadUrl(url, estimated), fetch).trie;
            Handle(after, ContainsQuery(id, Some(line)), fetch).replies == [ContainsReply(id, true)]
  {
    var res := fetch(SourceUrl(url));
    var est := EffectiveEstimate(estimated);
    var lines := SplitLines(Concat(res.chunks));
    YieldsMember(lines, line);
    LoadContains(t, est, res.chunks, CleanLine(line).value);
    CleanLineIsQuery(line);
  }

  /** After a load, an `isPrefix` query on any prefix of a loaded token answers true. */
  lemma LoadedPrefixIsFound(t: Node, url: Option<string>, estimated: Option<int>,
                            fetch: string -> FetchResponse, line: string, p: string, id: string)
    requires Ok(fetch(SourceUrl(url)))
    requires line in SplitLines(Concat(fetch(SourceUrl(url)).chunks))
    requires CleanLine(line).Some? && |CleanLine(line).value| > 0
    requires p <= CleanLine(line).value
    ensures var after := Handle(t, LoadUrl(url, estimated), fetch).trie;
            Handle(after, IsPrefixQuery(id, Some(p)), fetch).replies == [IsPrefixReply(id, true)]
  {
    var res := fetch(SourceUrl(url));
    var est := EffectiveEstimate(estimated);
    var w := CleanLine(line).value;
    var after := Load(t, est, res.chunks).trie;
    assert Handle(t, LoadUrl(url, estimated), fetch).trie == after;
    LoadedPrefix(t, est, res.chunks, line, p);
    LettersPrefixQuery(w, p);
  }

  /** A term with no letter at all asks about the empty string: `contains`
      answers false on any trie the worker builds, `isPrefix` answers true. */
  lemma EmptyTermQueries(t: Node, id: string, term: Option<string>, fetch: string -> FetchResponse)
    requires Valid(t)
    requires NormalizeQuery(term.GetOr("")) == ""
    ensures Handle(t, ContainsQuery(id, term), fetch).replies == [ContainsReply(id, false)]
    ensures Handle(t, IsPrefixQuery(id, term), fetch).replies == [IsPrefixReply(id, true)]
  {
  }

  /** Every message keeps the worker's trie valid. */
  lemma HandleValid(t: Node, req: Request, fetch: string -> FetchResponse)
    requires Valid(t)
    ensures Valid(Handle(t, req, fetch).trie)
  {
    if req.LoadUrl? && Ok(fetch(SourceUrl(req.url))) {
      LoadValid(t, EffectiveEstimate(req.estimated), fetch(SourceUrl(req.url)).chunks);
    }
  }

  /** The worker's life: messages handled one after another on the trie that
      starts empty, with all posted messages in order. */
  function Serve(t: Node, reqs: seq<Request>, fetch: string -> FetchResponse): (r: Outcome)
    ensures (forall i :: 0 <= i < |reqs| ==> !reqs[i].LoadUrl?) ==> r.trie == t
    decreases |reqs|
  {
    if |reqs| == 0 then Outcome(t, [])
    else
      var before := Serve(t, AllButLast(reqs), fetch);
      var step := Handle(before.trie, Last(reqs), fetch);
      Outcome(step.trie, before.replies + step.replies)
  }

  /** A query's kind and correlation id. */
  datatype Tag = ContainsTag(id: string) | IsPrefixTag(id: string)

  /** The tag of a query request; other requests have none. */
  function TagOf(req: Request): seq<Tag>
  {
    match req
    case ContainsQuery(id, _) => [ContainsTag(id)]
    case IsPrefixQuery(id, _) => [IsPrefixTag(id)]
    case _ => []
  }

  /** The queries among the requests, in order. */
  function Asked(reqs: seq<Request>): seq<Tag>
    decreases |reqs|
  {
    if |reqs| == 0 then [] else Asked(AllButLast(reqs)) + TagOf(Last(reqs))
  }

  /** The query answers among the replies, in order. */
  function Answered(replies: seq<Reply>): seq<Tag>
    decreases |replies|
  {
    if |replies| == 0 then []
    else
      var tag := match Last(replies)
        case ContainsReply(id, _) => [ContainsTag(id)]
        case IsPrefixReply(id, _) => [IsPrefixTag(id)]
        case _ => [];
      Answered(AllButLast(replies)) + tag
  }

  lemma {:induction false} AnsweredAppend(a: seq<Reply>, b: seq<Reply>)
    ensures Answered(a + b) == Answered(a) + Answered(b)
    decreases |b|
  {
    if |b| == 0 {
      assert a + b == a;
    } else {
      assert AllButLast(a + b) == a + AllButLast(b) && Last(a + b) == Last(b);
      AnsweredAppend(a, AllButLast(b));
    }
  }

  /** The replies of one load are progress, `loaded` or error messages, never query answers. */
  lemma LoadAnswersNothing(t: Node, req: Request, fetch: string -> FetchResponse)
    requires req.LoadUrl?
    ensures Answered(Handle(t, req, fetch).replies) == []
  {
    var rs := Handle(t, req, fetch).replies;
    var last := rs[|rs| - 1];
    assert Answered([last]) == [] by {
      assert AllButLast([last]) == [];
    }
    if |rs| > 1 {
      AnsweredAppend(AllButLast(rs), [last]);
      assert rs == AllButLast(rs) + [last];
    }
  }

  /** One message answers exactly its own query, if it is one. */
  lemma HandleAnswers(t: Node, req: Request, fetch: string -> FetchResponse)
    ensures Answered(Handle(t, req, fetch).replies) == TagOf(req)
  {
    if req.LoadUrl? {
      LoadAnswersNothing(t, req, fetch);
    } else if !req.Unrecognised? {
      var rs := Handle(t, req, fetch).replies;
      assert AllButLast(rs) == [];
    }
  }

  /** Every query is answered exactly once, in the order asked, with its own
      kind and id, however many loads and other queries come in between. */
  lemma {:induction false} EveryQueryAnswered(t: Node, reqs: seq<Request>, fetch: string -> FetchResponse)
    ensures Answered(Serve(t, reqs, fetch).replies) == Asked(reqs)
    decreases |reqs|
  {
    if |reqs| > 0 {
      var before := Serve(t, AllButLast(reqs), fetch);
      var step := Handle(before.trie, Last(reqs), fetch);
      EveryQueryAnswered(t, AllButLast(reqs), fetch);
      AnsweredAppend(before.replies, step.replies);
      HandleAnswers(before.trie, Last(reqs), fetch);
    }
  }

  /** Starting from the empty trie, every trie the worker ever holds is valid:
      no empty word, only letters `a`-`z` on edges, no dead branches. */
  lemma {:induction false} ServeValid(reqs: seq<Request>, fetch: string -> FetchResponse)
    ensures Valid(Serve(Empty, reqs, fetch).trie)
    decreases |reqs|
  {
    if |reqs| == 0 {
      EmptyValid();
    } else {
      ServeValid(AllButLast(reqs), fetch);
      HandleValid(Serve(Empty, AllButLast(reqs), fetch).trie, Last(reqs), fetch);
    }
  }
}

=== FILE: wrappers.dfy ===
/** Optional values, used for the fields a worker message may leave out. */
module Wrappers {

  datatype Option<+T> = None | Some(value: T) {

    /** The value, or `default` when absent: JavaScript's `x || default` for a field that is missing. */
    function GetOr(default: T): T
    {
      match this
      case Some(v) => v
      case None => default
    }
  }
}
